=== FILE: README.md ===
# pybuild scheduling core in Dafny

This project models the scheduling logic of `pybuild`, a single-file incremental build tool. Its entry point is `build(context, depends, builds, first, num_threads)`, which works in four stages:

1. It walks the `depends` table from the root artifact `first`, creating one `BuildNode` per reachable name. A node's `children` are the nodes that depend on it.
2. It hands the nodes to a `BuildQueue`. The queue's per-node counters release a node once all of its dependencies have been fed back.
3. A pool of workers takes nodes from the queue. For each node, a worker runs `execute_task`: `should_build` staleness propagation first, then the node's actions in order. The worker then feeds the node back, or reports it missing when it did not complete.
4. Each `get` lowers the balance `having`; the call that brings it to `-num_threads` posts one stop marker per worker. In the sequential schedule modelled here that happens exactly when every worker is idle in `get` and nothing is queued (under real threads it can happen earlier; see "## Left out"). The run ends by reporting the names that were never fed back.

Modules, in dependency order:

- `Collections`: repetition-free sequences and set sizes.
- `Actions`: build actions, their status codes, and the short-circuiting action loop of `execute_task`.
- `Graph`:
  - `get_default`;
  - the `BuildNode` constructor;
  - `walkdep`, over an arena `map<Name, Node>` that keeps dictionary insertion order.
- `Staleness`: `should_build`.
- `Executor`: `execute_task`.
- `Queue`: `BuildQueue` (`__init__`, `decrement`, `get`, `feedback`) and the event log.
- `Scheduler`:
  - the worker loop as a sequential interleaving;
  - `build` itself;
  - termination of the run and the stop-marker bookkeeping.
- `Ordering`: the counter discipline as a state invariant. Each counter equals the number of the node's dependencies not yet fed back. A node is queued exactly when its counter is 0. It is handed out at most once, and only after all of its dependencies.
- `Guarantees`: what a whole `build` promises, stated on its `Outcome`.

Time, threads and the file system are inputs:

- The file system is a `Disk`. It holds the snapshot of present paths with their modification times, sampled while nodes are built, and the set of paths that exist when a worker checks a node after its actions.
- An action's effect is its status code.
- The worker pool is one fixed interleaving: every worker first calls `get`, and then the head of the queue goes to a waiting worker. That worker processes the node to completion and calls `get` again.

Three behaviours of the code are worth stating plainly:

- **Direction of `children`.** `children` holds a node's dependents, not its dependencies: `walkdep` adds `result[node]` to the children of each dependency `dep` (pybuild/pybuild.py:115, 117). So `should_build` on a present node marks absent its present dependents that are older than it, and on an absent node marks all of its dependents absent (pybuild/pybuild.py:26-35).
- **Missing nodes.** A node reported missing is never fed back (pybuild/pybuild.py:97-101), so the counters of its dependents never reach 0 and they are never released. `Guarantees.FedClosed` states that whatever is fed back has all its dependencies fed back. `Guarantees.BuildOrder` states that every node handed out comes after all of its dependencies were handed out and fed back, so no dependent of a missing node is handed out.
- **Duplicate dependencies.** `BuildNode` sets the counter to `len(deps) + 1` (pybuild/pybuild.py:17, 117). A node that lists one dependency twice therefore starts at the number of distinct dependencies plus 2, and the queue's initial decrement leaves it at distinct plus 1. `children` is a set, so feeding back each distinct dependency lowers the counter once, it stops at 1, and the node is never released. The model keeps this behaviour: `Ordering.Outstanding` counts a repeated entry as outstanding for good. `Guarantees.BuildOrder` shows that every node handed out has a repetition-free dependency list.

## Model

| member | source | states |
|---|---|---|
| `Graph.GetDefault` | pybuild/pybuild.py:3-4 | the value under the key when present, the default otherwise |
| `Graph.NewNode` | pybuild/pybuild.py:15-24 | a fresh node carries its name and the given dependents; its counter is one more than the length of its dependency list; its actions are its `builds` entry, or none; it is present exactly when the snapshot has its path, and then its mtime is the snapshot's |
| `Graph.AddChild` | pybuild/pybuild.py:115 | linking a dependent adds exactly that name to the node's dependent set; it never repeats an entry and touches no other node |
| `Graph.WalkSpec` | pybuild/pybuild.py:111-119 | walking a node keeps the arena well formed and only grows it; old nodes keep everything but their dependents, new nodes are fresh `BuildNode`s; every dependency of every new node has a node; the dependents of `d` are its old dependents, plus `n` when `n` lists `d`, plus the new nodes that list `d` |
| `Graph.ConstructSpec` | pybuild/pybuild.py:111-121 | the graph of `build`: the root comes first in insertion order; the names are closed under dependencies; every node is as the constructor made it, with counter `1 + len(deps)`; the dependents of `d` are exactly the nodes that list `d`, so the root has none unless a node depends on it |
| `Graph.ConstructReachable` | pybuild/pybuild.py:111-121 | the graph holds no name outside any dependency-closed set that contains the root; with `ConstructSpec`, its names are exactly those reachable from the root |
| `Staleness.MarkDependents` | pybuild/pybuild.py:27-33 | the loop over dependents marks absent exactly the listed nodes that are outdated, and nothing else changes |
| `Staleness.ShouldBuild` | pybuild/pybuild.py:26-35 | the result is "the node is absent"; the node's own flag and every field other than presence flags stay as they were; only the dependents' flags change: all become absent when the node is absent, and when it is present exactly the present, older ones do |
| `Actions.RunActions` | pybuild/pybuild.py:71-92 | actions run in list order and stop after the first failure; success holds iff every action succeeded; one report is emitted per action that ran |
| `Actions.RunActionsCount` | pybuild/pybuild.py:71-92 | the number of reports is the independent count of actions up to and including the first failure |
| `Actions.RunActionsAppend` | pybuild/pybuild.py:71-92 | after a prefix of successful actions, the run continues as the run of the rest |
| `Executor.ExecuteTask` | pybuild/pybuild.py:67-92 | a node that is still present succeeds without running anything; an absent one runs its actions and succeeds iff all succeed; either way the node flags are those `should_build` leaves |
| `Queue.LowerOne` | pybuild/pybuild.py:48-52 | one step of `decrement` lowers one counter; the node is enqueued, and `having` raised, exactly when the counter becomes 0 |
| `Queue.Decrement` | pybuild/pybuild.py:47-52 | `decrement` keeps the node names; the queue only grows, by nodes of the list, and `having` grows by exactly as many entries as were added |
| `Queue.ReleasedSpec` | pybuild/pybuild.py:47-52 | a node is released iff it is listed with counter 1; a list without repetition releases each node at most once |
| `Queue.DecrementExact` | pybuild/pybuild.py:47-52 | for a list without repetition, each listed counter drops by exactly one, no other counter moves, and the queue gains exactly the released nodes, in list order |
| `Queue.DecrementFrame` | pybuild/pybuild.py:47-52 | a decrement changes nothing but counters, the queue and `having`, and no field of any node except its counter |
| `Queue.DecrementPending` | pybuild/pybuild.py:47-52 | a decrement only shrinks the set of nodes with a positive counter, and the entries it adds plus the nodes still pending never exceed the nodes pending before |
| `Queue.DecrementReleases` | pybuild/pybuild.py:47-52 | every entry a decrement adds is a node that had a positive counter before it and has none after it |
| `Queue.DecrementLowers` | pybuild/pybuild.py:47-52 | a decrement never raises any counter |
| `Queue.Get` | pybuild/pybuild.py:54-61 | `get` lowers `having` by one; it appends exactly `num_threads` stop markers at the call where `having` becomes `-num_threads`, and none otherwise |
| `Queue.Stops` | pybuild/pybuild.py:58-59 | the sentinel loop posts `n` stop markers |
| `Queue.Gets` | pybuild/pybuild.py:54-61 | `k` calls to `get` lower `having` by `k` and post the stop markers iff `having` passes `-num_threads` during them |
| `Queue.Feedback` | pybuild/pybuild.py:63-65 | `feedback(n)` removes exactly `n` from `left`, keeps the node names, and changes no part of the state but `left`, the nodes, the queue and `having` |
| `Queue.FeedbackFrame` | pybuild/pybuild.py:63-65 | feeding back changes no field of any node except its counter |
| `Queue.FeedbackExact` | pybuild/pybuild.py:63-65 | feeding back `n` lowers each dependent's counter by exactly one and leaves every other counter alone; the queue gains exactly the dependents whose counter was 1 |
| `Queue.Init` | pybuild/pybuild.py:38-45 | the constructor sets `left` to every node; `having` equals the number of entries enqueued; nothing is dispatched; the log holds only the start event |
| `Scheduler.Tasks` | pybuild/pybuild.py:74-89 | task reports become task events in order, and never a missing-node event |
| `Scheduler.Process` | pybuild/pybuild.py:97-101 | a completed node (actions succeeded and the name starts with `!` or the path exists afterwards) is fed back; otherwise it is reported missing, and `left`, the queue and `having` are untouched |
| `Scheduler.Step` | pybuild/pybuild.py:94-103 | a stop marker retires one waiting worker; a node is appended to the handed-out list, processed, and its worker waits again |
| `Scheduler.StartWorkers` | pybuild/pybuild.py:125-128 | every worker enters `get` once before any dequeue: `having` drops by the pool size |
| `Scheduler.StepPhased` | pybuild/pybuild.py:54-61 | a step keeps the run in phase (only nodes queued and `having` equal to queue length minus pool size, or only stop markers queued, one per waiting worker, and `having` at `-num_threads`) and lowers the termination measure |
| `Scheduler.HandOut` | pybuild/pybuild.py:95-101 | processing the head node keeps only nodes in the queue and `having` in step with the queue, and lowers queued plus unreleased nodes |
| `Scheduler.StartPhased` | pybuild/pybuild.py:38-61 | after the constructor and the first `get` of every worker, the run is in phase: the stop markers were posted iff nothing was ready |
| `Scheduler.Run` | pybuild/pybuild.py:94-103 | the run terminates with every worker stopped and `left` only shrunk; with at least one worker the queue is drained and `having == -num_threads`, so `get` was called once per enqueued node plus once per worker |
| `Scheduler.Launch` | pybuild/pybuild.py:124-131 | the queue constructor, the pool's first `get` calls and the run to completion end in phase with no worker waiting, names kept and `left` only shrunk; with a worker the queue is drained and `having` is `-num_threads` |
| `Scheduler.Build` | pybuild/pybuild.py:105-133 | an unknown root yields a missing report, failure and left-over `{first}`, with nothing dispatched; the verdict is success iff nothing is left over; the last event is the end report |
| `Ordering.OutstandingFeed` | pybuild/pybuild.py:63-65 | feeding back `n` releases exactly one entry of a dependency list that names it and none of one that does not |
| `Ordering.OutstandingZero` | pybuild/pybuild.py:47-52 | no entry is outstanding iff the list has no repetition and every name in it is fed back |
| `Ordering.CounterMeaning` | pybuild/pybuild.py:47-65 | under the discipline a counter is never negative, and it is 0 iff the node's dependencies are listed once each and all were fed back |
| `Ordering.PopDisciplined` | pybuild/pybuild.py:54-61 | handing out the queue head keeps the discipline; the node was still in `left` and had not been handed out |
| `Ordering.FeedbackConsistent` | pybuild/pybuild.py:63-65 | feeding back a handed-out node keeps every counter equal to its outstanding dependencies and queues a node exactly when its counter reaches 0, never twice and never one handed out |
| `Ordering.ProcessConsistent` | pybuild/pybuild.py:97-101 | processing a handed-out node keeps the discipline whether it is fed back or reported missing; staleness marking only touches presence flags |
| `Ordering.StepConsistent` | pybuild/pybuild.py:94-103 | a scheduling step keeps the discipline |
| `Ordering.RunConsistent` | pybuild/pybuild.py:94-103 | the whole run keeps the discipline |
| `Ordering.InitView` | pybuild/pybuild.py:38-52 | after the constructor's decrement, every counter is the length of the dependency list, `left` is every node, nothing is handed out, and exactly the nodes with no dependencies are queued, each once |
| `Ordering.InitConsistent` | pybuild/pybuild.py:38-52 | the run starts under the discipline |
| `Guarantees.StepLogged` | pybuild/pybuild.py:97-101 | a step keeps the log in step: a node is reported missing iff it was handed out and not fed back |
| `Guarantees.FinalState` | pybuild/pybuild.py:121-133 | the final state keeps the discipline and the log invariant, no worker waits, the nodes are the graph's, and with any worker the queue is drained |
| `Guarantees.BuildOrder` | pybuild/pybuild.py:47-65 | no node is handed out twice; each node is handed out only after every one of its dependencies was handed out earlier and fed back; every node handed out is in the graph and lists each dependency once |
| `Guarantees.BuildLeftover` | pybuild/pybuild.py:121-133 | the start event names every node; the left-over names are nodes; every node fed back was handed out; a node is reported missing iff it was handed out and is left over |
| `Guarantees.BuildReady` | pybuild/pybuild.py:54-61 | with at least one worker, no ready node is stranded: every node whose dependencies are listed once and all fed back was handed out |
| `Guarantees.FedClosed` | pybuild/pybuild.py:97-101 | a node that was not fed back holds back every node that depends on it: whatever is fed back has all its dependencies fed back |

## Left out

- Threads, `threading.Lock` and the blocking `queue.Queue` (pybuild/pybuild.py:40-41, 55, 61, 125-131) are modelled as one sequential interleaving. Other interleavings, and the order in which the real threads reach `get`, are not modelled.
- Each `decrement` (and so each `feedback`) is one atomic step in the model, but not in the source. `feedback` runs outside the lock, and `decrement` puts a node on the queue before it raises `having` (pybuild/pybuild.py:51-52). Under threads, a worker already blocked in `queue.get()` can take that node, finish it and call `get` before the `having += 1` runs. That `get` can then see `having == -num_threads` and post the stop markers early. A sibling released later in the same `feedback` is then queued behind a stop marker and stranded, and a second batch of markers can be posted. The unsynchronised `having += 1` can also race with `get`'s locked decrement. The counter update races as well. `node.counter -= 1` and `if not node.counter` (pybuild/pybuild.py:49-50) run unlocked, so two workers feeding back two dependencies of the same node can interleave there. If both decrements land before either test, both tests read 0 and the node is queued twice. It is then handed out twice, and its second `feedback` lowers its dependents' counters again, which can release them before their other dependencies are built. If the two read-modify-writes interleave instead, one decrement is lost, the node never reaches 0, and the build fails with it left over. So `Guarantees.BuildReady`, `Guarantees.BuildOrder`, `Guarantees.FedClosed`, the counter meaning kept by `Ordering.RunConsistent`, and the stop-marker claims of `Scheduler.Run` hold for the sequential schedule only.
- Python set iteration order. A node's dependent set is a list with append-if-absent, so `should_build` and `feedback` visit dependents in the order they were linked.
- `os.path.exists` and `os.path.getmtime` (pybuild/pybuild.py:22-24, 97) are read from the `Disk` input. Modification times are integers rather than floats, and the path check after a node's actions is a given set of paths.
- `subprocess.Popen`, `shlex.split` and Python callables (pybuild/pybuild.py:72-86). Each action carries its status code as an input, and what it does to the file system is part of the `Disk` input. A callable that returns `None` counts as success (`if returncode:`, pybuild/pybuild.py:75), which the model reads as status 0.
- Actions.Action: every action returns a status; exceptions are not modelled. In the source, a callable that raises (pybuild/pybuild.py:73), a `format_map` error (:79), `shlex.split` rejecting unbalanced quotes (:80) or a `Popen` failure (:81) propagates out of `execute_task` and ends the worker thread without another `get`. `having` then never reaches `-num_threads`, and the remaining workers block in `queue.get()` forever. The termination claim of `Scheduler.Run` and every lemma of `Guarantees` hold only for actions that return a status.
- A dependency chain deeper than Python's recursion limit makes `walkdep` (pybuild/pybuild.py:111-118) raise `RecursionError` before any work is done. The model's walk has no depth limit.
- `Context.__getitem__` and `str.format_map` (pybuild/pybuild.py:6-13, 79). A command's report carries the unexpanded command template.
- The `report_*` functions (pybuild/pybuild.py:135 onward) are modelled as events in a log. They contain only output formatting and sorting, which are left out.
- A negative `num_threads` is not modelled: the pool size is a natural number. A negative size would start no worker.
- An empty pool (`num_threads == 0`) dequeues nothing. The claims about a drained queue and about stranded nodes are therefore stated only for at least one worker.

=== FILE: actions.dfy ===
/** The build actions of one artifact and the executor that runs them in
    order, stopping at the first failure (`execute_task`'s action loop). */
module Actions {

  type Name = string

  /** One build action. A callable and a shell command each yield a status
      code (0 is success); what the callable or the subprocess does is
      abstracted into that code. Anything else is an invalid action. */
  datatype Action =
    | Callable(fname: string, status: int)
    | Command(template: string, status: int)
    | Invalid(repr: string)

  /** The status attached to a task report: an exit code, or the marker
      for an action of unknown kind. */
  datatype Status = Code(code: int) | InvalidType

  /** The `report_task` event: owning artifact, action text, status. */
  datatype TaskReport = TaskReport(task: Name, action: string, status: Status)

  /** An action succeeds when it is a callable or command whose status is 0. */
  predicate Succeeds(a: Action) {
    match a
    case Callable(_, st) => st == 0
    case Command(_, st) => st == 0
    case Invalid(_) => false
  }

  /** The report emitted for running `a` on behalf of `task`. */
  function ReportOf(task: Name, a: Action): TaskReport {
    match a
    case Callable(fname, st) => TaskReport(task, fname, Code(st))
    case Command(template, st) => TaskReport(task, template, Code(st))
    case Invalid(repr) => TaskReport(task, repr, InvalidType)
  }

  /** Runs `actions` for `task` in list order and stops after the first one
      that fails. `ok` holds exactly when every action succeeded; the
      reports are those of the actions that ran: all of them on success,
      otherwise the prefix ending at the first failing action. */
  function RunActions(task: Name, actions: seq<Action>): (res: (bool, seq<TaskReport>))
    ensures res.0 <==> forall i | 0 <= i < |actions| :: Succeeds(actions[i])
    ensures |res.1| <= |actions|
    ensures forall i | 0 <= i < |res.1| :: res.1[i] == ReportOf(task, actions[i])
    ensures forall i | 0 <= i < |res.1| - 1 :: Succeeds(actions[i])
    ensures res.0 ==> |res.1| == |actions|
    ensures !res.0 ==> |res.1| > 0 && !Succeeds(actions[|res.1| - 1])
  {
    if actions == [] then (true, [])
    else
      var report := ReportOf(task, actions[0]);
      if !Succeeds(actions[0]) then (false, [report])
      else
        var rest := RunActions(task, actions[1..]);
        (rest.0, [report] + rest.1)
  }

  /** The number of actions that run: everything up to and including the
      first failing action, or all of them. An independent description of
      where `RunActions` stops. */
  function RanCount(actions: seq<Action>): (n: nat)
    ensures n <= |actions|
  {
    if actions == [] then 0
    else if !Succeeds(actions[0]) then 1
    else 1 + RanCount(actions[1..])
  }

  /** The executor runs exactly `RanCount` actions, and a run of actions
      split at any successful prefix continues as the run of the suffix. */
  lemma {:induction false} RunActionsCount(task: Name, actions: seq<Action>)
    ensures |RunActions(task, actions).1| == RanCount(actions)
  {
    if actions != [] && Succeeds(actions[0]) {
      RunActionsCount(task, actions[1..]);
    }
  }

  /** Running a list that begins with successful actions reports them and then
      behaves like running the remaining actions. */
  lemma {:induction false} RunActionsAppend(task: Name, done: seq<Action>, rest: seq<Action>)
    requires forall i | 0 <= i < |done| :: Succeeds(done[i])
    ensures RunActions(task, done + rest).0 == RunActions(task, rest).0
    ensures RunActions(task, done + rest).1
         == RunActions(task, done).1 + RunActions(task, rest).1
  {
    if done != [] {
      var tail := done[1..];
      assert (done + rest)[0] == done[0];
      assert (done + rest)[1..] == tail + rest;
      RunActionsAppend(task, tail, rest);
      calc {
        RunActions(task, done + rest).1;
        [ReportOf(task, done[0])] + RunActions(task, tail + rest).1;
        [ReportOf(task, done[0])] + (RunActions(task, tail).1 + RunActions(task, rest).1);
        ([ReportOf(task, done[0])] + RunActions(task, tail).1) + RunActions(task, rest).1;
        RunActions(task, done).1 + RunActions(task, rest).1;
      }
    } else {
      assert done + rest == rest;
    }
  }
}

=== FILE: collections.dfy ===
/** Small facts about sequences used as ordered sets, and about set sizes. */
module Collections {

  /** No element occurs twice in `s`. */
  predicate Distinct<T(==)>(s: seq<T>) {
    forall i, j | 0 <= i < j < |s| :: s[i] != s[j]
  }

  /** The elements of `s`, forgetting order and repetition. */
  function ToSet<T>(s: seq<T>): set<T> {
    set x | x in s
  }

  /** A subset is never larger than its superset. */
  lemma {:induction false} SubsetCard<T>(a: set<T>, b: set<T>)
    requires a <= b
    ensures |a| <= |b|
    decreases |b|
  {
    if a != {} {
      var x :| x in a;
      SubsetCard(a - {x}, b - {x});
    }
  }

  /** A subset that misses an element of its superset is strictly smaller. */
  lemma ProperSubsetCard<T>(a: set<T>, b: set<T>, x: T)
    requires a <= b && x in b && x !in a
    ensures |a| < |b|
  {
    SubsetCard(a, b - {x});
  }
}

=== FILE: executor.dfy ===
/** `execute_task`: run a node's actions only when `should_build` says the
    node is stale. */
module Executor {
  import opened Actions
  import opened Graph
  import opened Staleness

  /** The outcome of `execute_task`: its verdict, the node flags after
      staleness propagation, and the task reports emitted. */
  datatype Execution = Execution(ok: bool, nodes: map<Name, Node>, reports: seq<TaskReport>)

  /** `execute_task(n)`: a node that is still present is skipped with
      success and runs nothing; an absent one runs its actions in order up
      to the first failure and succeeds exactly when all of them succeed.
      Either way the node flags are those `should_build` leaves. */
  function ExecuteTask(nodes: map<Name, Node>, n: Name): (e: Execution)
    requires n in nodes
    requires forall c | c in nodes[n].children :: c in nodes
    ensures e.nodes == ShouldBuild(nodes, n).1
    ensures nodes[n].present ==> e.ok && e.reports == []
    ensures !nodes[n].present ==>
      && (e.ok <==> forall i | 0 <= i < |nodes[n].builds| :: Succeeds(nodes[n].builds[i]))
      && |e.reports| == RanCount(nodes[n].builds)
      && forall i | 0 <= i < |e.reports| :: e.reports[i] == ReportOf(n, nodes[n].builds[i])
  {
    var (stale, marked) := ShouldBuild(nodes, n);
    if !stale then Execution(true, marked, [])
    else
      var (ok, reports) := RunActions(n, nodes[n].builds);
      RunActionsCount(n, nodes[n].builds);
      Execution(ok, marked, reports)
  }
}

=== FILE: graph.dfy ===
/** Dependency-graph construction: `BuildNode`'s constructor and the
    depth-first `walkdep` inside `build`, which creates one node per artifact
    reachable from the root and links every node to the nodes that depend
    on it. Nodes live in an arena keyed by artifact name; a node's
    `children` are the names of its DEPENDENTS, as in the source. */
module Graph {
  import opened Collections
  import opened Actions

  /** Artifact name to the names it depends on. */
  type DependTable = map<Name, seq<Name>>
  /** Artifact name to its build actions. */
  type BuildTable = map<Name, seq<Action>>
  /** The file system as sampled while the graph is built: every present
      path with its modification time. */
  type Snapshot = map<Name, int>

  /** One artifact of the run. `counter` is the number of dependencies not
      yet completed plus the constructor's extra 1; `children` are the
      dependents, without repetition, in the order they were linked;
      `present` and `mtime` come from the snapshot (`mtime` is 0, and never
      read, when the path is absent). */
  datatype Node = Node(
    name: Name,
    counter: int,
    children: seq<Name>,
    builds: seq<Action>,
    present: bool,
    mtime: int)

  /** The arena in dictionary insertion order: `order` lists the keys of
      `nodes` in the order the walk created them. */
  datatype Graph = Graph(nodes: map<Name, Node>, order: seq<Name>)

  /** `get_default`: the value under `k`, or `v` when `k` is absent. */
  function GetDefault<K, V>(m: map<K, V>, k: K, v: V): (r: V)
    ensures k in m ==> r == m[k]
    ensures k !in m ==> r == v
  {
    if k in m then m[k] else v
  }

  /** The dependency list of `k`; an artifact missing from the table has none. */
  function Deps(depends: DependTable, k: Name): seq<Name> {
    GetDefault(depends, k, [])
  }

  /** Every name the table mentions, as a key or as a dependency. */
  function Universe(depends: DependTable): set<Name> {
    depends.Keys + set k, x | k in depends && x in depends[k] :: x
  }

  /** `BuildNode(name, len(deps), parents, builds)`: the counter starts at
      the number of listed dependencies plus one, and existence and mtime
      are sampled once from the snapshot. */
  function NewNode(depends: DependTable, builds: BuildTable, disk: Snapshot,
                   name: Name, parents: seq<Name>): (node: Node)
    ensures node.name == name && node.children == parents
    ensures node.counter == |Deps(depends, name)| + 1
    ensures node.present <==> name in disk
    ensures node.present ==> node.mtime == disk[name]
    ensures node.builds == GetDefault(builds, name, [])
  {
    var here := name in disk;
    Node(name, |Deps(depends, name)| + 1, parents, GetDefault(builds, name, []),
         here, if here then disk[name] else 0)
  }

  /** `result[d].children.add(result[p])`: link `p` as a dependent of `d`,
      leaving the list alone when `p` is already there. */
  function AddChild(nodes: map<Name, Node>, d: Name, p: Name): (r: map<Name, Node>)
    requires d in nodes
    ensures r.Keys == nodes.Keys
    ensures forall k | k in nodes && k != d :: r[k] == nodes[k]
    ensures r[d] == nodes[d].(children := r[d].children)
    ensures ToSet(r[d].children) == ToSet(nodes[d].children) + {p}
    ensures Distinct(nodes[d].children) ==> Distinct(r[d].children)
  {
    var node := nodes[d];
    if p in node.children then nodes
    else nodes[d := node.(children := node.children + [p])]
  }

  /** The graph after creating dependency `ds[0]` of `n` in `g`. */
  function Inserted(depends: DependTable, builds: BuildTable, disk: Snapshot,
                    n: Name, ds: seq<Name>, g: Graph): Graph
    requires ds != []
  {
    Graph(g.nodes[ds[0] := NewNode(depends, builds, disk, ds[0], [n])], g.order + [ds[0]])
  }

  /** `walkdep(n, result)`: for every dependency of `n`, link `n` into an
      existing node or create the node and walk it in turn. */
  function Walk(depends: DependTable, builds: BuildTable, disk: Snapshot,
                n: Name, g: Graph): (r: Graph)
    requires n in g.nodes
    ensures g.nodes.Keys <= r.nodes.Keys
    decreases |Universe(depends) - g.nodes.Keys|, 1, 0
  {
    if n in depends then WalkDeps(depends, builds, disk, n, depends[n], g)
    else g
  }

  /** The loop of `walkdep(n, ...)` over the not yet visited suffix `ds` of
      `n`'s dependency list. */
  function WalkDeps(depends: DependTable, builds: BuildTable, disk: Snapshot,
                    n: Name, ds: seq<Name>, g: Graph): (r: Graph)
    requires n in g.nodes
    requires forall x | x in ds :: x in Universe(depends)
    ensures g.nodes.Keys <= r.nodes.Keys
    decreases |Universe(depends) - g.nodes.Keys|, 0, |ds|
  {
    if ds == [] then g
    else
      var d := ds[0];
      if d in g.nodes then
        WalkDeps(depends, builds, disk, n, ds[1..], g.(nodes := AddChild(g.nodes, d, n)))
      else
        var g1 := Inserted(depends, builds, disk, n, ds, g);
        ProperSubsetCard(Universe(depends) - g1.nodes.Keys, Universe(depends) - g.nodes.Keys, d);
        var g2 := Walk(depends, builds, disk, d, g1);
        SubsetCard(Universe(depends) - g2.nodes.Keys, Universe(depends) - g.nodes.Keys);
        WalkDeps(depends, builds, disk, n, ds[1..], g2)
  }

  /** The node map `walkdep` starts from: the root alone, with no dependents. */
  function RootGraph(depends: DependTable, builds: BuildTable, disk: Snapshot,
                     first: Name): Graph
  {
    Graph(map[first := NewNode(depends, builds, disk, first, [])], [first])
  }

  /** `nodes = walkdep(first, {first: BuildNode(first, ...)})`. */
  function Construct(depends: DependTable, builds: BuildTable, disk: Snapshot,
                     first: Name): (g: Graph)
    ensures first in g.nodes
  {
    Walk(depends, builds, disk, first, RootGraph(depends, builds, disk, first))
  }

  // ---------------------------------------------------------------------
  // What the walk builds

  /** The arena is consistent: insertion order lists each key once, every
      node carries its own name, and dependent lists are repetition-free
      lists of known names. */
  ghost predicate WellFormed(g: Graph) {
    && ToSet(g.order) == g.nodes.Keys
    && Distinct(g.order)
    && forall k | k in g.nodes ::
         && g.nodes[k].name == k
         && Distinct(g.nodes[k].children)
         && ToSet(g.nodes[k].children) <= g.nodes.Keys
  }

  /** `r` grows `g`: old keys keep their place in the insertion order and all
      fields but `children`; new keys are freshly constructed nodes. */
  ghost predicate Grows(depends: DependTable, builds: BuildTable, disk: Snapshot,
                        g: Graph, r: Graph)
  {
    && g.nodes.Keys <= r.nodes.Keys
    && |g.order| <= |r.order| && r.order[..|g.order|] == g.order
    && (forall k | k in g.nodes :: r.nodes[k] == g.nodes[k].(children := r.nodes[k].children))
    && (forall k | k in r.nodes && k !in g.nodes ::
          r.nodes[k] == NewNode(depends, builds, disk, k, r.nodes[k].children))
  }

  /** After walking the edges out of `n` listed in `ds`, and everything the
      walk created: `p` is a dependent of `d` exactly when it already was,
      or `p` is `n` and `d` is in `ds`, or `p` is new and lists `d`. */
  ghost predicate LinksAfter(depends: DependTable, g: Graph, r: Graph, n: Name, ds: seq<Name>)
    requires g.nodes.Keys <= r.nodes.Keys
  {
    forall d, p | d in r.nodes ::
      p in r.nodes[d].children <==>
        || (d in g.nodes && p in g.nodes[d].children)
        || (p == n && d in ds)
        || (p in r.nodes && p !in g.nodes && d in Deps(depends, p))
  }

  /** Every dependency of every node created between `g` and `r` has a node. */
  ghost predicate NewClosed(depends: DependTable, g: Graph, r: Graph) {
    forall k, x | k in r.nodes && k !in g.nodes && x in Deps(depends, k) :: x in r.nodes
  }

  /** Growing is transitive. */
  lemma GrowsTrans(depends: DependTable, builds: BuildTable, disk: Snapshot,
                   g: Graph, g1: Graph, r: Graph)
    requires Grows(depends, builds, disk, g, g1) && Grows(depends, builds, disk, g1, r)
    ensures Grows(depends, builds, disk, g, r)
  {
    assert r.order[..|g.order|] == r.order[..|g1.order|][..|g.order|];
    forall k | k in r.nodes && k !in g.nodes
      ensures r.nodes[k] == NewNode(depends, builds, disk, k, r.nodes[k].children)
    {
      if k in g1.nodes {
        assert g1.nodes[k] == NewNode(depends, builds, disk, k, g1.nodes[k].children);
      }
    }
  }

  /** Case of an edge to an already-known dependency `d`: linking `n` into
      `d` and then walking the remaining edges accounts for all of `ds`. */
  lemma LinksKnown(depends: DependTable, g: Graph, r: Graph, n: Name, ds: seq<Name>)
    requires ds != [] && ds[0] in g.nodes && g.nodes.Keys <= r.nodes.Keys
    requires LinksAfter(depends, g.(nodes := AddChild(g.nodes, ds[0], n)), r, n, ds[1..])
    ensures LinksAfter(depends, g, r, n, ds)
  {
    var g1 := g.(nodes := AddChild(g.nodes, ds[0], n));
    forall d, p | d in r.nodes
      ensures p in r.nodes[d].children <==>
        || (d in g.nodes && p in g.nodes[d].children)
        || (p == n && d in ds)
        || (p in r.nodes && p !in g.nodes && d in Deps(depends, p))
    {
      assert d in g1.nodes ==> (p in g1.nodes[d].children <==>
        p in g.nodes[d].children || (d == ds[0] && p == n));
      assert d in ds <==> d == ds[0] || d in ds[1..];
    }
  }

  /** Case of an edge to a new dependency `d`: create it with dependent `n`,
      walk it, then walk the remaining edges. */
  lemma LinksNew(depends: DependTable, g: Graph, g1: Graph, g2: Graph, r: Graph,
                 n: Name, ds: seq<Name>)
    requires ds != [] && ds[0] !in g.nodes
    requires g1.nodes.Keys == g.nodes.Keys + {ds[0]}
    requires forall k | k in g.nodes :: g1.nodes[k] == g.nodes[k]
    requires g1.nodes[ds[0]].children == [n]
    requires g1.nodes.Keys <= g2.nodes.Keys <= r.nodes.Keys
    requires LinksAfter(depends, g1, g2, ds[0], Deps(depends, ds[0]))
    requires forall x | x in Deps(depends, ds[0]) :: x in g2.nodes
    requires NewClosed(depends, g1, g2)
    requires LinksAfter(depends, g2, r, n, ds[1..])
    ensures LinksAfter(depends, g, r, n, ds)
  {
    var d0 := ds[0];
    forall d, p | d in r.nodes
      ensures p in r.nodes[d].children <==>
        || (d in g.nodes && p in g.nodes[d].children)
        || (p == n && d in ds)
        || (p in r.nodes && p !in g.nodes && d in Deps(depends, p))
    {
      assert d in ds <==> d == d0 || d in ds[1..];
      if d in g2.nodes {
        assert p in g2.nodes[d].children <==>
          || (d in g1.nodes && p in g1.nodes[d].children)
          || (p == d0 && d in Deps(depends, d0))
          || (p in g2.nodes && p !in g1.nodes && d in Deps(depends, p));
        if d in g1.nodes {
          assert p in g1.nodes[d].children <==>
            (d in g.nodes && p in g.nodes[d].children) || (d == d0 && p == n);
        }
      }
    }
  }

  /** Linking a known dependent keeps the arena well formed and grows it. */
  lemma AddChildKeeps(depends: DependTable, builds: BuildTable, disk: Snapshot,
                      g: Graph, d: Name, n: Name)
    requires WellFormed(g) && d in g.nodes && n in g.nodes
    ensures WellFormed(g.(nodes := AddChild(g.nodes, d, n)))
    ensures Grows(depends, builds, disk, g, g.(nodes := AddChild(g.nodes, d, n)))
  {
  }

  /** Creating a new node with dependent `n` keeps the arena well formed and grows it. */
  lemma InsertKeeps(depends: DependTable, builds: BuildTable, disk: Snapshot,
                    g: Graph, d: Name, n: Name)
    requires WellFormed(g) && d !in g.nodes && n in g.nodes
    ensures var g1 := Graph(g.nodes[d := NewNode(depends, builds, disk, d, [n])], g.order + [d]);
      WellFormed(g1) && Grows(depends, builds, disk, g, g1)
  {
    var g1 := Graph(g.nodes[d := NewNode(depends, builds, disk, d, [n])], g.order + [d]);
    assert ToSet(g1.order) == ToSet(g.order) + {d};
    assert g1.order[..|g.order|] == g.order;
  }

  /** The nodes created across three stages all have their dependencies. */
  lemma NewClosedNew(depends: DependTable, g: Graph, g1: Graph, g2: Graph, r: Graph, d: Name)
    requires g1.nodes.Keys == g.nodes.Keys + {d}
    requires g1.nodes.Keys <= g2.nodes.Keys <= r.nodes.Keys
    requires forall x | x in Deps(depends, d) :: x in g2.nodes
    requires NewClosed(depends, g1, g2) && NewClosed(depends, g2, r)
    ensures NewClosed(depends, g, r)
  {
  }

  /** What walking the edges of `n` listed in `ds` guarantees about the
      result `r` of starting from `g`. */
  ghost predicate WalkPost(depends: DependTable, builds: BuildTable, disk: Snapshot,
                           n: Name, ds: seq<Name>, g: Graph, r: Graph)
  {
    && WellFormed(r)
    && Grows(depends, builds, disk, g, r)
    && LinksAfter(depends, g, r, n, ds)
    && NewClosed(depends, g, r)
    && (forall x | x in ds :: x in r.nodes)
  }

  /** An edge to a known dependency. */
  lemma WalkKnownStep(depends: DependTable, builds: BuildTable, disk: Snapshot,
                      n: Name, ds: seq<Name>, g: Graph, r: Graph)
    requires n in g.nodes && WellFormed(g) && ds != [] && ds[0] in g.nodes
    requires WalkPost(depends, builds, disk, n, ds[1..], g.(nodes := AddChild(g.nodes, ds[0], n)), r)
    ensures WalkPost(depends, builds, disk, n, ds, g, r)
  {
    var g1 := g.(nodes := AddChild(g.nodes, ds[0], n));
    AddChildKeeps(depends, builds, disk, g, ds[0], n);
    GrowsTrans(depends, builds, disk, g, g1, r);
    LinksKnown(depends, g, r, n, ds);
  }

  /** An edge to a new dependency, created and walked before the rest:
      shape of the result. */
  lemma WalkNewGrows(depends: DependTable, builds: BuildTable, disk: Snapshot,
                     n: Name, ds: seq<Name>, g: Graph, g2: Graph, r: Graph)
    requires n in g.nodes && WellFormed(g) && ds != [] && ds[0] !in g.nodes
    requires Grows(depends, builds, disk, Inserted(depends, builds, disk, n, ds, g), g2)
    requires Grows(depends, builds, disk, g2, r)
    ensures Grows(depends, builds, disk, g, r)
  {
    var g1 := Inserted(depends, builds, disk, n, ds, g);
    InsertKeeps(depends, builds, disk, g, ds[0], n);
    GrowsTrans(depends, builds, disk, g, g1, g2);
    GrowsTrans(depends, builds, disk, g, g2, r);
  }

  /** An edge to a new dependency, created and walked before the rest:
      links and closure of the result. */
  lemma WalkNewLinks(depends: DependTable, builds: BuildTable, disk: Snapshot,
                     n: Name, ds: seq<Name>, g: Graph, g2: Graph, r: Graph)
    requires ds != [] && ds[0] !in g.nodes
    requires var g1 := Inserted(depends, builds, disk, n, ds, g);
      && g1.nodes.Keys <= g2.nodes.Keys <= r.nodes.Keys
      && LinksAfter(depends, g1, g2, ds[0], Deps(depends, ds[0]))
      && NewClosed(depends, g1, g2)
      && (forall x | x in Deps(depends, ds[0]) :: x in g2.nodes)
    requires LinksAfter(depends, g2, r, n, ds[1..]) && NewClosed(depends, g2, r)
    requires forall x | x in ds[1..] :: x in r.nodes
    ensures LinksAfter(depends, g, r, n, ds) && NewClosed(depends, g, r)
    ensures forall x | x in ds :: x in r.nodes
  {
    var d := ds[0];
    var g1 := Inserted(depends, builds, disk, n, ds, g);
    LinksNew(depends, g, g1, g2, r, n, ds);
    NewClosedNew(depends, g, g1, g2, r, d);
    assert forall x | x in ds :: x == d || x in ds[1..];
  }

  /** An edge to a new dependency, created and walked before the rest. */
  lemma WalkNewStep(depends: DependTable, builds: BuildTable, disk: Snapshot,
                    n: Name, ds: seq<Name>, g: Graph, g2: Graph, r: Graph)
    requires n in g.nodes && WellFormed(g) && ds != [] && ds[0] !in g.nodes
    requires WalkPost(depends, builds, disk, ds[0], Deps(depends, ds[0]),
                      Inserted(depends, builds, disk, n, ds, g), g2)
    requires WalkPost(depends, builds, disk, n, ds[1..], g2, r)
    ensures WalkPost(depends, builds, disk, n, ds, g, r)
  {
    WalkNewGrows(depends, builds, disk, n, ds, g, g2, r);
    WalkNewLinks(depends, builds, disk, n, ds, g, g2, r);
  }

  lemma {:induction false} WalkSpec(depends: DependTable, builds: BuildTable, disk: Snapshot,
                                    n: Name, g: Graph)
    requires n in g.nodes && WellFormed(g)
    ensures WalkPost(depends, builds, disk, n, Deps(depends, n), g, Walk(depends, builds, disk, n, g))
    decreases |Universe(depends) - g.nodes.Keys|, 1, 0, 0
  {
    if n in depends {
      WalkDepsSpec(depends, builds, disk, n, depends[n], g);
    } else {
      assert Deps(depends, n) == [];
      assert g.order[..|g.order|] == g.order;
    }
  }

  lemma {:induction false} WalkDepsSpec(depends: DependTable, builds: BuildTable, disk: Snapshot,
                                        n: Name, ds: seq<Name>, g: Graph)
    requires n in g.nodes && WellFormed(g)
    requires forall x | x in ds :: x in Universe(depends)
    ensures WalkPost(depends, builds, disk, n, ds, g, WalkDeps(depends, builds, disk, n, ds, g))
    decreases |Universe(depends) - g.nodes.Keys|, 0, |ds|, 1
  {
    if ds == [] {
      assert g.order[..|g.order|] == g.order;
    } else if ds[0] in g.nodes {
      WalkDepsKnown(depends, builds, disk, n, ds, g);
    } else {
      WalkDepsNew(depends, builds, disk, n, ds, g);
    }
  }

  lemma {:induction false} WalkDepsKnown(depends: DependTable, builds: BuildTable, disk: Snapshot,
                                         n: Name, ds: seq<Name>, g: Graph)
    requires n in g.nodes && WellFormed(g) && ds != [] && ds[0] in g.nodes
    requires forall x | x in ds :: x in Universe(depends)
    ensures WalkPost(depends, builds, disk, n, ds, g, WalkDeps(depends, builds, disk, n, ds, g))
    decreases |Universe(depends) - g.nodes.Keys|, 0, |ds|, 0
  {
    var d := ds[0];
    var g1 := g.(nodes := AddChild(g.nodes, d, n));
    AddChildKeeps(depends, builds, disk, g, d, n);
    WalkDepsSpec(depends, builds, disk, n, ds[1..], g1);
    WalkKnownStep(depends, builds, disk, n, ds, g, WalkDeps(depends, builds, disk, n, ds[1..], g1));
  }

  lemma {:induction false} WalkDepsNew(depends: DependTable, builds: BuildTable, disk: Snapshot,
                                       n: Name, ds: seq<Name>, g: Graph)
    requires n in g.nodes && WellFormed(g) && ds != [] && ds[0] !in g.nodes
    requires forall x | x in ds :: x in Universe(depends)
    ensures WalkPost(depends, builds, disk, n, ds, g, WalkDeps(depends, builds, disk, n, ds, g))
    decreases |Universe(depends) - g.nodes.Keys|, 0, |ds|, 0
  {
    var d := ds[0];
    var g1 := Inserted(depends, builds, disk, n, ds, g);
    InsertKeeps(depends, builds, disk, g, d, n);
    ProperSubsetCard(Universe(depends) - g1.nodes.Keys, Universe(depends) - g.nodes.Keys, d);
    WalkSpec(depends, builds, disk, d, g1);
    var g2 := Walk(depends, builds, disk, d, g1);
    SubsetCard(Universe(depends) - g2.nodes.Keys, Universe(depends) - g.nodes.Keys);
    WalkDepsSpec(depends, builds, disk, n, ds[1..], g2);
    WalkNewStep(depends, builds, disk, n, ds, g, g2, WalkDeps(depends, builds, disk, n, ds[1..], g2));
  }

  // ---------------------------------------------------------------------
  // The graph of one run

  /** `S` holds every dependency of each of its names. */
  ghost predicate DepClosed(depends: DependTable, S: set<Name>) {
    forall k, x | k in S && x in Deps(depends, k) :: x in S
  }

  /** The graph `walkdep` returns for root `first`: the arena is well formed
      and its insertion order starts with the root; the names are closed
      under dependencies; every node is as `BuildNode` made it, so its
      counter is one more than the length of its dependency list; and the
      dependents of `d` are exactly the nodes that list `d` as a dependency
      (so the root has none unless some node depends on it). */
  lemma ConstructSpec(depends: DependTable, builds: BuildTable, disk: Snapshot, first: Name)
    ensures var g := Construct(depends, builds, disk, first);
      && WellFormed(g)
      && |g.order| > 0 && g.order[0] == first
      && DepClosed(depends, g.nodes.Keys)
      && (forall k | k in g.nodes :: g.nodes[k] == NewNode(depends, builds, disk, k, g.nodes[k].children))
      && (forall d, p | d in g.nodes :: p in g.nodes[d].children <==> p in g.nodes && d in Deps(depends, p))
  {
    var g0 := RootGraph(depends, builds, disk, first);
    var g := Construct(depends, builds, disk, first);
    assert WellFormed(g0) by {
      assert ToSet(g0.order) == {first};
    }
    WalkSpec(depends, builds, disk, first, g0);
    assert g.order[..1] == g0.order;
    RootLinks(depends, builds, disk, first, g);
  }

  /** The links of the walk from the root alone: the dependents of `d` are
      the nodes that list it. */
  lemma RootLinks(depends: DependTable, builds: BuildTable, disk: Snapshot, first: Name, g: Graph)
    requires var g0 := RootGraph(depends, builds, disk, first);
      && g0.nodes.Keys <= g.nodes.Keys
      && LinksAfter(depends, g0, g, first, Deps(depends, first))
      && first in g.nodes
    ensures forall d, p | d in g.nodes :: p in g.nodes[d].children <==> p in g.nodes && d in Deps(depends, p)
  {
    var g0 := RootGraph(depends, builds, disk, first);
    forall d, p | d in g.nodes
      ensures p in g.nodes[d].children <==> p in g.nodes && d in Deps(depends, p)
    {
      if d == first {
        assert g0.nodes[d].children == [];
      }
    }
  }

  /** The graph `walkdep` returns is a well-formed arena. */
  lemma ConstructWellFormed(depends: DependTable, builds: BuildTable, disk: Snapshot, first: Name)
    ensures var g := Construct(depends, builds, disk, first);
      WellFormed(g) && forall x | x in g.order :: x in g.nodes
  {
    var g := Construct(depends, builds, disk, first);
    ConstructSpec(depends, builds, disk, first);
    forall x | x in g.order ensures x in g.nodes {
      assert x in ToSet(g.order);
    }
  }

  /** `walkdep` creates nothing outside a dependency-closed set that holds
      everything it starts from. */
  lemma {:induction false} WalkWithin(depends: DependTable, builds: BuildTable, disk: Snapshot,
                                      n: Name, g: Graph, S: set<Name>)
    requires n in g.nodes && g.nodes.Keys <= S && DepClosed(depends, S)
    ensures Walk(depends, builds, disk, n, g).nodes.Keys <= S
    decreases |Universe(depends) - g.nodes.Keys|, 1, 0
  {
    if n in depends {
      WalkDepsWithin(depends, builds, disk, n, depends[n], g, S);
    }
  }

  lemma {:induction false} WalkDepsWithin(depends: DependTable, builds: BuildTable, disk: Snapshot,
                                          n: Name, ds: seq<Name>, g: Graph, S: set<Name>)
    requires n in g.nodes && g.nodes.Keys <= S && DepClosed(depends, S)
    requires forall x | x in ds :: x in Universe(depends) && x in S
    ensures WalkDeps(depends, builds, disk, n, ds, g).nodes.Keys <= S
    decreases |Universe(depends) - g.nodes.Keys|, 0, |ds|
  {
    if ds != [] {
      var d := ds[0];
      if d in g.nodes {
        WalkDepsWithin(depends, builds, disk, n, ds[1..], g.(nodes := AddChild(g.nodes, d, n)), S);
      } else {
        var g1 := Inserted(depends, builds, disk, n, ds, g);
        ProperSubsetCard(Universe(depends) - g1.nodes.Keys, Universe(depends) - g.nodes.Keys, d);
        WalkWithin(depends, builds, disk, d, g1, S);
        var g2 := Walk(depends, builds, disk, d, g1);
        SubsetCard(Universe(depends) - g2.nodes.Keys, Universe(depends) - g.nodes.Keys);
        WalkDepsWithin(depends, builds, disk, n, ds[1..], g2, S);
      }
    }
  }

  /** The graph's names are exactly the names reachable from the root: they
      form the least dependency-closed set containing `first`. */
  lemma ConstructReachable(depends: DependTable, builds: BuildTable, disk: Snapshot,
                           first: Name, S: set<Name>)
    requires first in S && DepClosed(depends, S)
    ensures Construct(depends, builds, disk, first).nodes.Keys <= S
  {
    WalkWithin(depends, builds, disk, first, RootGraph(depends, builds, disk, first), S);
  }
}

=== FILE: guarantees.dfy ===
/** What a whole `build` run guarantees, from the counter discipline: the
    order nodes are handed to workers, that none is handed out twice, what
    is left over, and which nodes are reported missing. */
module Guarantees {
  import opened Collections
  import opened Actions
  import opened Graph
  import opened Executor
  import opened Queue
  import opened Scheduler
  import opened Ordering

  /** The log starts with the `Start` event over all nodes, and a node is
      reported missing exactly when it was handed out and not fed back. */
  ghost predicate Logged(s: Sched) {
    && |s.log| > 0 && s.log[0] == Start(s.nodes.Keys)
    && forall d :: Missing(d) in s.log <==> d in s.dispatched && d in s.left
  }

  /** A scheduling step keeps the log in step with the names handed out
      and fed back. */
  lemma StepLogged(s: Sched, after: set<Name>)
    requires Closed(s) && s.waiting > 0 && |s.queue| > 0
    requires s.queue[0].Work? ==> s.queue[0].name !in s.dispatched && s.queue[0].name in s.left
    requires Logged(s)
    ensures Logged(Step(s, after))
  {
    if s.queue[0].Work? {
      var n := s.queue[0].name;
      var s1 := s.(queue := s.queue[1..], dispatched := s.dispatched + [n]);
      var e := ExecuteTask(s1.nodes, n);
      var r := Step(s, after);
      assert r.log[0] == s.log[0];
      forall d ensures Missing(d) in r.log <==> d in r.dispatched && d in r.left {
        assert Missing(d) in s.log + Tasks(e.reports) <==> Missing(d) in s.log;
      }
    }
  }

  lemma {:induction false} RunLogged(depends: DependTable, s: Sched, after: set<Name>)
    requires Consistent(depends, s) && Phased(s) && Logged(s)
    ensures Logged(Run(s, after))
    decreases Measure(s)
  {
    if s.waiting > 0 && |s.queue| > 0 {
      StepPhased(s, after);
      StepConsistent(depends, s, after);
      if s.queue[0].Work? {
        PopEnqueued(ViewOf(s));
      }
      StepLogged(s, after);
      RunLogged(depends, Step(s, after), after);
    }
  }

  /** The final scheduler state of `build` for a root that has a table entry. */
  ghost function Final(depends: DependTable, builds: BuildTable, first: Name, threads: nat, disk: Disk): (r: Sched)
  {
    ConstructWellFormed(depends, builds, disk.snapshot, first);
    Launch(Construct(depends, builds, disk.snapshot, first), threads, disk.after)
  }

  /** Unfolds `Build` for a root that has a table entry: its outcome is read
      off the final state. */
  lemma FinalOutcome(depends: DependTable, builds: BuildTable, first: Name, threads: nat, disk: Disk)
    requires first in depends || first in builds
    ensures var r := Final(depends, builds, first, threads, disk);
      Build(depends, builds, first, threads, disk)
        == Outcome(r.left == {}, r.left, r.dispatched, r.log + [End(r.left == {}, r.left)])
  {
  }

  lemma FinalState(depends: DependTable, builds: BuildTable, first: Name, threads: nat, disk: Disk)
    ensures var r := Final(depends, builds, first, threads, disk);
      && Consistent(depends, r) && Logged(r) && r.waiting == 0
      && r.nodes.Keys == Construct(depends, builds, disk.snapshot, first).nodes.Keys
      && (threads > 0 ==> r.queue == [])
  {
    var g := Construct(depends, builds, disk.snapshot, first);
    InitConsistent(depends, builds, disk.snapshot, first, threads);
    ConstructSpec(depends, builds, disk.snapshot, first);
    StartPhased(g, threads);
    var s := StartWorkers(Init(g, threads));
    InitLogged(g, threads);
    RunConsistent(depends, s, disk.after);
    RunLogged(depends, s, disk.after);
  }

  /** At the start the log holds the `Start` event alone. */
  lemma InitLogged(g: Graph, threads: nat)
    requires forall x | x in g.order :: x in g.nodes
    ensures Logged(StartWorkers(Init(g, threads)))
  {
  }

  /** `build` hands each node to a worker only after every one of its
      dependencies was handed out and fed back, never hands a node out
      twice, and never hands out a node that lists a dependency twice. */
  lemma BuildOrder(depends: DependTable, builds: BuildTable, first: Name, threads: nat, disk: Disk)
    requires first in depends || first in builds
    ensures var o := Build(depends, builds, first, threads, disk);
      && Distinct(o.dispatched)
      && (forall i, x | 0 <= i < |o.dispatched| && x in Deps(depends, o.dispatched[i]) ::
            x in o.dispatched[..i] && x !in o.leftover)
      && (forall d | d in o.dispatched ::
            d in Construct(depends, builds, disk.snapshot, first).nodes && Distinct(Deps(depends, d)))
  {
    FinalOutcome(depends, builds, first, threads, disk);
    FinalState(depends, builds, first, threads, disk);
    var v := ViewOf(Final(depends, builds, first, threads, disk));
    forall d | d in v.dispatched ensures d in v.counter && Distinct(Deps(depends, d)) {
      CounterMeaning(depends, v, d);
    }
    forall i, x | 0 <= i < |v.dispatched| && x in Deps(depends, v.dispatched[i])
      ensures x in v.dispatched[..i] && x !in v.left
    {
      assert v.dispatched[i] in v.dispatched;
    }
  }

  /** The `Start` event names every node; the left-over names are nodes,
      every node fed back was handed out, and a node is reported missing
      exactly when it was handed out and is left over. */
  lemma BuildLeftover(depends: DependTable, builds: BuildTable, first: Name, threads: nat, disk: Disk)
    requires first in depends || first in builds
    ensures var o := Build(depends, builds, first, threads, disk);
      var names := Construct(depends, builds, disk.snapshot, first).nodes.Keys;
      && o.events[0] == Start(names)
      && o.leftover <= names
      && (forall d | d in names && d !in o.leftover :: d in o.dispatched)
      && (forall d :: Missing(d) in o.events <==> d in o.dispatched && d in o.leftover)
  {
    FinalOutcome(depends, builds, first, threads, disk);
    FinalState(depends, builds, first, threads, disk);
    LeftoverOf(depends, Final(depends, builds, first, threads, disk));
  }

  /** The left-over facts of a consistent, logged state, as `build`
      reports them. */
  lemma LeftoverOf(depends: DependTable, r: Sched)
    requires Consistent(depends, r) && Logged(r)
    ensures var events := r.log + [End(r.left == {}, r.left)];
      && events[0] == Start(r.nodes.Keys)
      && r.left <= r.nodes.Keys
      && (forall d | d in r.nodes && d !in r.left :: d in r.dispatched)
      && (forall d :: Missing(d) in events <==> d in r.dispatched && d in r.left)
  {
    var v := ViewOf(r);
    forall d | d in v.counter && d !in v.left ensures d in v.dispatched {
    }
    forall d ensures Missing(d) in r.log + [End(r.left == {}, r.left)] <==> Missing(d) in r.log {
    }
  }

  /** With at least one worker nothing ready is stranded: every node whose
      dependencies are all fed back, each listed once, was handed out. */
  lemma BuildReady(depends: DependTable, builds: BuildTable, first: Name, threads: nat, disk: Disk)
    requires first in depends || first in builds
    requires threads > 0
    ensures var o := Build(depends, builds, first, threads, disk);
      forall d | d in Construct(depends, builds, disk.snapshot, first).nodes
                 && Distinct(Deps(depends, d))
                 && (forall x | x in Deps(depends, d) :: x !in o.leftover) ::
        d in o.dispatched
  {
    FinalOutcome(depends, builds, first, threads, disk);
    FinalState(depends, builds, first, threads, disk);
    var v := ViewOf(Final(depends, builds, first, threads, disk));
    forall d | d in v.counter && Distinct(Deps(depends, d)) &&
               (forall x | x in Deps(depends, d) :: x !in v.left)
      ensures d in v.dispatched
    {
      CounterMeaning(depends, v, d);
    }
  }

  /** The names fed back are closed under dependencies: a node that is not
      fed back holds back every node that depends on it. */
  lemma FedClosed(depends: DependTable, builds: BuildTable, first: Name, threads: nat, disk: Disk, d: Name, x: Name)
    requires first in depends || first in builds
    requires var o := Build(depends, builds, first, threads, disk);
      d in Construct(depends, builds, disk.snapshot, first).nodes && d !in o.leftover
    requires x in Deps(depends, d)
    ensures x !in Build(depends, builds, first, threads, disk).leftover
  {
    FinalOutcome(depends, builds, first, threads, disk);
    FinalState(depends, builds, first, threads, disk);
    var v := ViewOf(Final(depends, builds, first, threads, disk));
    assert d in v.counter && d !in v.left;
  }
}

=== FILE: ordering.dfy ===
/** The counter discipline of `BuildQueue`, stated against the dependency
    table: a node's counter is the number of its listed dependencies not yet
    fed back; it reaches 0 exactly once, at which point the node is queued;
    and nodes are handed out and fed back only after all of their
    dependencies. */
module Ordering {
  import opened Collections
  import opened Actions
  import opened Graph
  import opened Executor
  import opened Queue
  import opened Scheduler

  /** The part of a scheduler state the discipline talks about: each
      node's dependents and counter, the names not yet fed back, the queue,
      and the names handed out so far. */
  datatype View = View(
    children: map<Name, seq<Name>>,
    counter: map<Name, int>,
    left: set<Name>,
    queue: seq<Item>,
    dispatched: seq<Name>)

  function ViewOf(s: Sched): (v: View)
    ensures v.children.Keys == v.counter.Keys == s.nodes.Keys
    ensures forall k | k in s.nodes :: v.children[k] == s.nodes[k].children && v.counter[k] == s.nodes[k].counter
    ensures v.left == s.left && v.queue == s.queue && v.dispatched == s.dispatched
  {
    View(map k | k in s.nodes :: s.nodes[k].children,
         map k | k in s.nodes :: s.nodes[k].counter,
         s.left, s.queue, s.dispatched)
  }

  /** The arena matches the table: dependencies have nodes, and the
      dependents of `d` are exactly the nodes listing `d`, each once. */
  ghost predicate Shape(depends: DependTable, v: View) {
    && v.children.Keys == v.counter.Keys
    && v.left <= v.counter.Keys
    && DepClosed(depends, v.counter.Keys)
    && (forall k | k in v.children :: Distinct(v.children[k]))
    && (forall d, p | d in v.children :: p in v.children[d] <==> p in v.counter && d in Deps(depends, p))
  }

  /** The entries of a dependency list that still hold a counter up: those
      whose name is not fed back yet, and every entry whose name is listed
      again further on (feeding a name back lowers each dependent's counter
      once, however often the dependent lists it). */
  function Outstanding(ds: seq<Name>, left: set<Name>): (r: nat)
    ensures r <= |ds|
  {
    if ds == [] then 0
    else (if ds[0] in left || ds[0] in ds[1..] then 1 else 0) + Outstanding(ds[1..], left)
  }

  /** Each counter is the number of outstanding entries of the node's
      dependency list. */
  ghost predicate Counted(depends: DependTable, v: View) {
    forall d | d in v.counter :: v.counter[d] == Outstanding(Deps(depends, d), v.left)
  }

  /** No node is queued twice. */
  ghost predicate QueueDistinct(q: seq<Item>) {
    forall i, j | 0 <= i < j < |q| && q[i].Work? :: q[i] != q[j]
  }

  /** A counter is 0 exactly for the nodes handed out or queued; no node is
      handed out twice, queued twice, or both; and every node fed back was
      handed out. */
  ghost predicate Enqueued(v: View) {
    && (forall d | d in v.counter :: v.counter[d] == 0 <==> d in v.dispatched || Work(d) in v.queue)
    && Distinct(v.dispatched)
    && QueueDistinct(v.queue)
    && (forall d | d in v.dispatched :: Work(d) !in v.queue)
    && (forall d | d in v.dispatched :: d in v.counter)
    && (forall d | Work(d) in v.queue :: d in v.counter)
    && (forall d | d in v.counter && d !in v.left :: d in v.dispatched)
  }

  /** Each node handed out came after all of its dependencies were handed
      out, and the dependencies of every node handed out or queued have all
      been fed back. */
  ghost predicate Ordered(depends: DependTable, v: View) {
    && (forall i, x | 0 <= i < |v.dispatched| && x in Deps(depends, v.dispatched[i]) :: x in v.dispatched[..i])
    && (forall d, x | d in v.dispatched && x in Deps(depends, d) :: x !in v.left)
    && (forall d, x | Work(d) in v.queue && x in Deps(depends, d) :: x !in v.left)
  }

  ghost predicate Disciplined(depends: DependTable, v: View) {
    Shape(depends, v) && Counted(depends, v) && Enqueued(v) && Ordered(depends, v)
  }

  ghost predicate Consistent(depends: DependTable, s: Sched) {
    Disciplined(depends, ViewOf(s))
  }

  /** Before anything is fed back, every entry is outstanding. */
  lemma {:induction false} OutstandingAll(ds: seq<Name>, left: set<Name>)
    requires forall x | x in ds :: x in left
    ensures Outstanding(ds, left) == |ds|
  {
    if ds != [] {
      OutstandingAll(ds[1..], left);
    }
  }

  /** Feeding back `n` releases exactly one entry of a list that names it,
      and none of a list that does not. */
  lemma {:induction false} OutstandingFeed(ds: seq<Name>, left: set<Name>, n: Name)
    requires n in left
    ensures Outstanding(ds, left - {n}) == Outstanding(ds, left) - (if n in ds then 1 else 0)
  {
    if ds != [] {
      OutstandingFeed(ds[1..], left, n);
      assert n in ds <==> n == ds[0] || n in ds[1..];
    }
  }

  /** No entry is outstanding exactly when the list has no repetition and
      every name in it is fed back. */
  lemma {:induction false} OutstandingZero(ds: seq<Name>, left: set<Name>)
    ensures Outstanding(ds, left) == 0 <==> Distinct(ds) && forall x | x in ds :: x !in left
  {
    if ds != [] {
      OutstandingZero(ds[1..], left);
      assert forall x | x in ds :: x == ds[0] || x in ds[1..];
      if Distinct(ds) {
        assert Distinct(ds[1..]) by {
          forall i, j | 0 <= i < j < |ds[1..]| ensures ds[1..][i] != ds[1..][j] {
            assert ds[1..][i] == ds[i + 1] && ds[1..][j] == ds[j + 1];
          }
        }
        assert ds[0] !in ds[1..] by {
          forall j | 0 <= j < |ds[1..]| ensures ds[1..][j] != ds[0] {
            assert ds[1..][j] == ds[j + 1];
          }
        }
      }
      if ds[0] !in ds[1..] && Distinct(ds[1..]) {
        forall i, j | 0 <= i < j < |ds| ensures ds[i] != ds[j] {
          assert ds[j] == ds[1..][j - 1];
          if i > 0 {
            assert ds[i] == ds[1..][i - 1];
          }
        }
      }
    }
  }

  /** What a counter says: it is 0 exactly when the node's dependency list
      has no repetition and all of it is fed back. */
  lemma CounterMeaning(depends: DependTable, v: View, d: Name)
    requires Counted(depends, v) && d in v.counter
    ensures v.counter[d] >= 0
    ensures v.counter[d] == 0 <==>
      Distinct(Deps(depends, d)) && forall x | x in Deps(depends, d) :: x !in v.left
  {
    OutstandingZero(Deps(depends, d), v.left);
  }

  // ---------------------------------------------------------------------
  // Changes to the queue alone

  /** Replacing the queue by one with the same queued nodes, each once. */
  lemma SameWorkDisciplined(depends: DependTable, v: View, q: seq<Item>)
    requires Disciplined(depends, v)
    requires QueueDistinct(q)
    requires forall d :: Work(d) in q <==> Work(d) in v.queue
    ensures Disciplined(depends, v.(queue := q))
  {
    var w := v.(queue := q);
    assert Enqueued(w);
    assert Ordered(depends, w);
  }

  /** Appending stop markers keeps the queued nodes. */
  lemma AppendStops(q: seq<Item>, r: seq<Item>)
    requires |q| <= |r| && r[..|q|] == q
    requires forall i | |q| <= i < |r| :: r[i] == Stop
    requires QueueDistinct(q)
    ensures QueueDistinct(r)
    ensures forall d :: Work(d) in r <==> Work(d) in q
  {
    forall d | Work(d) in r ensures Work(d) in q {
      var i :| 0 <= i < |r| && r[i] == Work(d);
      assert r[i] == q[i];
    }
    forall d | Work(d) in q ensures Work(d) in r {
      var i :| 0 <= i < |q| && q[i] == Work(d);
      assert r[i] == q[i];
    }
    forall i, j | 0 <= i < j < |r| && r[i].Work? ensures r[i] != r[j] {
      assert r[i] == q[i];
      if j < |q| {
        assert r[j] == q[j];
      }
    }
  }

  /** Dropping the head of the queue drops only that entry. */
  lemma DropHead(q: seq<Item>)
    requires |q| > 0 && QueueDistinct(q)
    ensures QueueDistinct(q[1..])
    ensures forall d :: Work(d) in q[1..] <==> Work(d) in q && Work(d) != q[0]
  {
    forall d | Work(d) in q && Work(d) != q[0] ensures Work(d) in q[1..] {
      var i :| 0 <= i < |q| && q[i] == Work(d);
      assert q[1..][i - 1] == Work(d);
    }
    forall d | Work(d) in q[1..] ensures Work(d) != q[0] {
      var j :| 0 <= j < |q[1..]| && q[1..][j] == Work(d);
      assert q[j + 1] == Work(d);
    }
    forall i, j | 0 <= i < j < |q[1..]| && q[1..][i].Work? ensures q[1..][i] != q[1..][j] {
      assert q[1..][i] == q[i + 1] && q[1..][j] == q[j + 1];
    }
  }

  // ---------------------------------------------------------------------
  // Handing out the head of the queue

  /** Handing out `n` from the head of the queue moves it from the queue
      to the handed-out list. */
  lemma PopEnqueued(v: View)
    requires Enqueued(v) && |v.queue| > 0 && v.queue[0].Work?
    ensures var n := v.queue[0].name;
      && n in v.left && n in v.counter && n !in v.dispatched
      && Enqueued(v.(queue := v.queue[1..], dispatched := v.dispatched + [n]))
  {
    var n := v.queue[0].name;
    var w := v.(queue := v.queue[1..], dispatched := v.dispatched + [n]);
    DropHead(v.queue);
    assert Work(n) in v.queue;
  }

  /** A node at the head of the queue has all its dependencies fed back,
      hence handed out before it. */
  lemma PopOrdered(depends: DependTable, v: View)
    requires Shape(depends, v) && Enqueued(v) && Ordered(depends, v)
    requires |v.queue| > 0 && v.queue[0].Work?
    ensures var n := v.queue[0].name;
      Ordered(depends, v.(queue := v.queue[1..], dispatched := v.dispatched + [n]))
  {
    var n := v.queue[0].name;
    var w := v.(queue := v.queue[1..], dispatched := v.dispatched + [n]);
    DropHead(v.queue);
    assert Work(n) in v.queue;
    forall i, x | 0 <= i < |w.dispatched| && x in Deps(depends, w.dispatched[i])
      ensures x in w.dispatched[..i]
    {
      if i < |v.dispatched| {
        assert w.dispatched[..i] == v.dispatched[..i];
      } else {
        assert w.dispatched[..i] == v.dispatched;
        assert x in v.counter && x !in v.left;
      }
    }
  }

  lemma PopDisciplined(depends: DependTable, v: View)
    requires Disciplined(depends, v) && |v.queue| > 0 && v.queue[0].Work?
    ensures var n := v.queue[0].name;
      && n in v.left && n in v.counter
      && Disciplined(depends, v.(queue := v.queue[1..], dispatched := v.dispatched + [n]))
  {
    var n := v.queue[0].name;
    var w := v.(queue := v.queue[1..], dispatched := v.dispatched + [n]);
    PopEnqueued(v);
    PopOrdered(depends, v);
    SameCounters(depends, v, w);
  }

  /** The shape and the counters depend only on dependents, counters and
      the names left. */
  lemma SameCounters(depends: DependTable, v: View, w: View)
    requires Shape(depends, v) && Counted(depends, v)
    requires w.children == v.children && w.counter == v.counter && w.left == v.left
    ensures Shape(depends, w) && Counted(depends, w)
  {
  }

  // ---------------------------------------------------------------------
  // Feeding a node back

  /** The counters after feeding back `n`: each dependent of `n` lost one. */
  ghost predicate FedBack(v: View, w: View, n: Name)
    requires n in v.children
  {
    && w.children == v.children
    && w.counter.Keys == v.counter.Keys
    && w.left == v.left - {n}
    && w.dispatched == v.dispatched
    && forall d | d in v.counter :: w.counter[d] == v.counter[d] - (if d in v.children[n] then 1 else 0)
  }

  lemma FeedbackCounted(depends: DependTable, v: View, w: View, n: Name)
    requires Shape(depends, v) && Counted(depends, v) && n in v.left
    requires FedBack(v, w, n)
    ensures Shape(depends, w) && Counted(depends, w)
  {
    forall d | d in w.counter
      ensures w.counter[d] == Outstanding(Deps(depends, d), w.left)
    {
      assert d in v.children[n] <==> n in Deps(depends, d);
      OutstandingFeed(Deps(depends, d), v.left, n);
    }
  }

  /** Appending entries for nodes not queued yet, each once. */
  lemma AppendFresh(q: seq<Item>, rel: seq<Item>)
    requires QueueDistinct(q) && Distinct(rel)
    requires forall i | 0 <= i < |rel| :: rel[i] !in q
    ensures QueueDistinct(q + rel)
  {
    var r := q + rel;
    forall i, j | 0 <= i < j < |r| && r[i].Work? ensures r[i] != r[j] {
      if j < |q| {
        assert r[i] == q[i] && r[j] == q[j];
      } else if i < |q| {
        assert r[j] == rel[j - |q|] && r[i] == q[i];
      } else {
        assert r[i] == rel[i - |q|] && r[j] == rel[j - |q|];
      }
    }
  }

  /** The entries released by feeding back `n`: its dependents whose
      counter was 1, each once. */
  ghost predicate ReleasedBy(v: View, n: Name, rel: seq<Item>)
    requires n in v.children
  {
    && Distinct(rel)
    && (forall i | 0 <= i < |rel| :: rel[i].Work?)
    && (forall k :: Work(k) in rel <==> k in v.children[n] && k in v.counter && v.counter[k] == 1)
  }

  /** The released entries are nodes neither queued nor handed out. */
  lemma FeedbackQueue(depends: DependTable, v: View, w: View, n: Name, rel: seq<Item>)
    requires Shape(depends, v) && Enqueued(v) && n in v.dispatched && ReleasedBy(v, n, rel)
    requires FedBack(v, w, n) && w.queue == v.queue + rel
    ensures QueueDistinct(w.queue)
    ensures forall d :: Work(d) in w.queue <==> Work(d) in v.queue || Work(d) in rel
    ensures forall d | d in w.dispatched :: Work(d) !in w.queue
    ensures forall d | Work(d) in w.queue :: d in w.counter
    ensures Distinct(w.dispatched)
    ensures forall d | d in w.dispatched :: d in w.counter
    ensures forall d | d in w.counter && d !in w.left :: d in w.dispatched
  {
    forall i | 0 <= i < |rel| ensures rel[i] !in v.queue {
      assert Work(rel[i].name) in rel;
    }
    AppendFresh(v.queue, rel);
    forall d | d in v.dispatched ensures Work(d) !in rel {
      assert v.counter[d] == 0;
    }
  }

  /** After feeding back, a counter is 0 exactly for the nodes handed out
      or queued. */
  lemma FeedbackZeros(depends: DependTable, v: View, w: View, n: Name, rel: seq<Item>)
    requires Shape(depends, v) && Enqueued(v) && n in v.left
    requires FedBack(v, w, n) && Counted(depends, w)
    requires forall d :: Work(d) in w.queue <==> Work(d) in v.queue || Work(d) in rel
    requires forall k :: Work(k) in rel <==> k in v.children[n] && v.counter[k] == 1
    ensures forall d | d in w.counter :: w.counter[d] == 0 <==> d in w.dispatched || Work(d) in w.queue
  {
    forall d | d in w.counter
      ensures w.counter[d] == 0 <==> d in w.dispatched || Work(d) in w.queue
    {
      CounterMeaning(depends, w, d);
    }
  }

  lemma FeedbackOrdered(depends: DependTable, v: View, w: View, n: Name, rel: seq<Item>)
    requires Disciplined(depends, v) && n in v.left
    requires FedBack(v, w, n) && Counted(depends, w)
    requires w.queue == v.queue + rel && ReleasedBy(v, n, rel)
    ensures Ordered(depends, w)
  {
    forall d, x | Work(d) in w.queue && x in Deps(depends, d) ensures x !in w.left {
      assert Work(d) in w.queue <==> Work(d) in v.queue || Work(d) in rel;
      if Work(d) !in v.queue {
        CounterMeaning(depends, w, d);
      }
    }
  }

  /** What `Feedback` does to the view: `FedBack`, with the released
      dependents of `n` appended to the queue. */
  lemma FeedbackView(s: Sched, n: Name)
    requires n in s.nodes && Distinct(s.nodes[n].children)
    requires forall c | c in s.nodes[n].children :: c in s.nodes
    ensures var v := ViewOf(s);
      var w := ViewOf(Feedback(s, n));
      var rel := Released(s.nodes, s.nodes[n].children);
      && FedBack(v, w, n)
      && w.queue == v.queue + rel && ReleasedBy(v, n, rel)
  {
    var ch := s.nodes[n].children;
    var s2 := s.(left := s.left - {n});
    DecrementFrame(s2, ch);
    DecrementExact(s2, ch);
    ReleasedSpec(s.nodes, ch);
  }

  /** Feeding back a node that was handed out and not yet fed back. */
  lemma FeedbackConsistent(depends: DependTable, s: Sched, n: Name)
    requires Consistent(depends, s) && n in s.dispatched && n in s.left
    ensures Consistent(depends, Feedback(s, n))
  {
    var v := ViewOf(s);
    var w := ViewOf(Feedback(s, n));
    var rel := Released(s.nodes, s.nodes[n].children);
    FeedbackView(s, n);
    FeedbackCounted(depends, v, w, n);
    FeedbackQueue(depends, v, w, n, rel);
    FeedbackZeros(depends, v, w, n, rel);
    FeedbackOrdered(depends, v, w, n, rel);
  }

  // ---------------------------------------------------------------------
  // The scheduler's moves

  /** Staleness changes only presence flags, which the discipline does not
      mention. */
  lemma FlagsConsistent(depends: DependTable, s: Sched, nodes: map<Name, Node>, log: seq<Event>)
    requires Consistent(depends, s)
    requires nodes.Keys == s.nodes.Keys
    requires forall k | k in nodes :: nodes[k] == s.nodes[k].(present := nodes[k].present)
    ensures Consistent(depends, s.(nodes := nodes, log := log))
  {
    SameView(s, nodes, log);
  }

  lemma SameView(s: Sched, nodes: map<Name, Node>, log: seq<Event>)
    requires nodes.Keys == s.nodes.Keys
    requires forall k | k in nodes :: nodes[k] == s.nodes[k].(present := nodes[k].present)
    ensures ViewOf(s.(nodes := nodes, log := log)) == ViewOf(s)
  {
    var a := ViewOf(s.(nodes := nodes, log := log));
    var b := ViewOf(s);
    assert a.children == b.children;
    assert a.counter == b.counter;
  }

  /** Processing a node that was just handed out. */
  lemma ProcessConsistent(depends: DependTable, s: Sched, n: Name, after: set<Name>)
    requires Consistent(depends, s) && n in s.dispatched && n in s.left
    ensures Consistent(depends, Process(s, n, after))
  {
    var e := ExecuteTask(s.nodes, n);
    var s1 := s.(nodes := e.nodes, log := s.log + Tasks(e.reports));
    FlagsConsistent(depends, s, e.nodes, s.log + Tasks(e.reports));
    if Completed(e.ok, n, after) {
      FeedbackConsistent(depends, s1, n);
    } else {
      FlagsConsistent(depends, s1, s1.nodes, s1.log + [Missing(n)]);
    }
  }

  /** A scheduling step keeps the discipline. */
  lemma StepConsistent(depends: DependTable, s: Sched, after: set<Name>)
    requires Consistent(depends, s) && Closed(s) && s.waiting > 0 && |s.queue| > 0
    ensures Consistent(depends, Step(s, after))
  {
    var v := ViewOf(s);
    if s.queue[0] == Stop {
      DropHead(s.queue);
      SameWorkDisciplined(depends, v, s.queue[1..]);
      assert ViewOf(Step(s, after)) == v.(queue := s.queue[1..]);
    } else {
      var n := s.queue[0].name;
      var s1 := s.(queue := s.queue[1..], dispatched := s.dispatched + [n]);
      PopDisciplined(depends, v);
      assert ViewOf(s1) == v.(queue := v.queue[1..], dispatched := v.dispatched + [n]);
      ProcessConsistent(depends, s1, n, after);
      var s2 := Process(s1, n, after);
      var r := Get(s2);
      AppendStops(s2.queue, r.queue);
      SameWorkDisciplined(depends, ViewOf(s2), r.queue);
      assert ViewOf(r) == ViewOf(s2).(queue := r.queue);
    }
  }

  /** The whole run keeps the discipline. */
  lemma {:induction false} RunConsistent(depends: DependTable, s: Sched, after: set<Name>)
    requires Consistent(depends, s) && Phased(s)
    ensures Consistent(depends, Run(s, after))
    decreases Measure(s)
  {
    if s.waiting > 0 && |s.queue| > 0 {
      StepPhased(s, after);
      StepConsistent(depends, s, after);
      RunConsistent(depends, Step(s, after), after);
    }
  }

  // ---------------------------------------------------------------------
  // The start of the run

  /** After the constructor's decrement of every node, each counter is the
      length of the node's dependency list, and exactly the nodes without
      dependencies are queued, in insertion order. */
  lemma InitView(depends: DependTable, builds: BuildTable, disk: Snapshot,
                 first: Name, threads: nat)
    ensures var g := Construct(depends, builds, disk, first);
      && (forall x | x in g.order :: x in g.nodes)
      && var v := ViewOf(Init(g, threads));
      && Shape(depends, v)
      && v.left == v.counter.Keys && v.dispatched == []
      && (forall d | d in v.counter :: v.counter[d] == |Deps(depends, d)|)
      && QueueDistinct(v.queue)
      && (forall d :: Work(d) in v.queue <==> d in v.counter && Deps(depends, d) == [])
  {
    var g := Construct(depends, builds, disk, first);
    ConstructSpec(depends, builds, disk, first);
    InitOrder(g);
    InitCounters(depends, builds, disk, g, threads);
    InitQueue(depends, builds, disk, g, threads);
  }

  /** The insertion order lists exactly the keys. */
  lemma InitOrder(g: Graph)
    requires WellFormed(g)
    ensures forall x :: x in g.order <==> x in g.nodes
  {
    forall x ensures x in g.order <==> x in g.nodes {
      assert x in g.order <==> x in ToSet(g.order);
    }
  }

  lemma InitCounters(depends: DependTable, builds: BuildTable, disk: Snapshot, g: Graph, threads: nat)
    requires WellFormed(g) && forall x :: x in g.order <==> x in g.nodes
    requires forall k | k in g.nodes :: g.nodes[k] == NewNode(depends, builds, disk, k, g.nodes[k].children)
    requires forall d, p | d in g.nodes :: p in g.nodes[d].children <==> p in g.nodes && d in Deps(depends, p)
    requires DepClosed(depends, g.nodes.Keys)
    ensures var v := ViewOf(Init(g, threads));
      && Shape(depends, v)
      && v.left == v.counter.Keys && v.dispatched == []
      && (forall d | d in v.counter :: v.counter[d] == |Deps(depends, d)|)
  {
    var s0 := Sched(g.nodes, g.nodes.Keys, [], 0, threads, 0, [], [Start(g.nodes.Keys)]);
    DecrementFrame(s0, g.order);
    DecrementExact(s0, g.order);
  }

  lemma InitQueue(depends: DependTable, builds: BuildTable, disk: Snapshot, g: Graph, threads: nat)
    requires WellFormed(g) && forall x :: x in g.order <==> x in g.nodes
    requires forall k | k in g.nodes :: g.nodes[k] == NewNode(depends, builds, disk, k, g.nodes[k].children)
    ensures var v := ViewOf(Init(g, threads));
      && QueueDistinct(v.queue)
      && (forall d :: Work(d) in v.queue <==> d in v.counter && Deps(depends, d) == [])
  {
    var s0 := Sched(g.nodes, g.nodes.Keys, [], 0, threads, 0, [], [Start(g.nodes.Keys)]);
    DecrementExact(s0, g.order);
    ReleasedSpec(g.nodes, g.order);
  }

  lemma InitConsistent(depends: DependTable, builds: BuildTable, disk: Snapshot,
                       first: Name, threads: nat)
    ensures var g := Construct(depends, builds, disk, first);
      && (forall x | x in g.order :: x in g.nodes)
      && Consistent(depends, StartWorkers(Init(g, threads)))
  {
    var g := Construct(depends, builds, disk, first);
    InitView(depends, builds, disk, first, threads);
    var s1 := Init(g, threads);
    var v := ViewOf(s1);
    forall d | d in v.counter
      ensures v.counter[d] == Outstanding(Deps(depends, d), v.left)
    {
      OutstandingAll(Deps(depends, d), v.left);
    }
    assert Counted(depends, v);
    assert Enqueued(v);
    assert Ordered(depends, v);
    var s := StartWorkers(s1);
    AppendStops(s1.queue, s.queue);
    SameWorkDisciplined(depends, v, s.queue);
    assert ViewOf(s) == v.(queue := s.queue);
  }
}

=== FILE: queue.dfy ===
/** `BuildQueue`: pending-dependency counters, the ready queue, and the
    `having` balance whose arrival at `-num_threads` posts one stop marker
    per worker. The whole run's state lives in one record. */
module Queue {
  import opened Collections
  import opened Actions
  import opened Graph

  /** A queue entry: a node handed to a worker, or the `None` stop marker. */
  datatype Item = Work(name: Name) | Stop

  /** The events a run emits: `report_start`, `report_task`,
      `report_missing` and `report_end`. */
  datatype Event =
    | Start(names: set<Name>)
    | Task(report: TaskReport)
    | Missing(name: Name)
    | End(success: bool, leftover: set<Name>)

  /** The scheduler state of one run.
      - `nodes`: the arena, whose counters and flags change during the run;
      - `left`: names not yet fed back;
      - `queue`: the ready queue, first entry first out;
      - `having`: entries enqueued minus `get` calls so far;
      - `threads`: the size of the worker pool;
      - `waiting`: workers blocked in `get`;
      - `dispatched`: the names handed to workers, in order;
      - `log`: the events emitted so far. */
  datatype Sched = Sched(
    nodes: map<Name, Node>,
    left: set<Name>,
    queue: seq<Item>,
    having: int,
    threads: nat,
    waiting: nat,
    dispatched: seq<Name>,
    log: seq<Event>)

  /** The names whose counter is positive: those not yet released. */
  ghost function Pending(nodes: map<Name, Node>): set<Name> {
    set k | k in nodes && nodes[k].counter > 0
  }

  /** The entries a decrement over `names` releases, judged on the counters
      before it starts: each listed node whose counter is 1, in list order. */
  function Released(nodes: map<Name, Node>, names: seq<Name>): (r: seq<Item>)
    requires forall x | x in names :: x in nodes
    ensures |r| <= |names|
    ensures forall i | 0 <= i < |r| :: r[i].Work? && r[i].name in names
  {
    if names == [] then []
    else
      (if nodes[names[0]].counter == 1 then [Work(names[0])] else [])
      + Released(nodes, names[1..])
  }

  /** A node is released exactly when it is listed with counter 1, and a
      repetition-free list releases each node at most once. */
  lemma {:induction false} ReleasedSpec(nodes: map<Name, Node>, names: seq<Name>)
    requires forall x | x in names :: x in nodes
    ensures forall k :: Work(k) in Released(nodes, names) <==> k in names && nodes[k].counter == 1
    ensures Distinct(names) ==> Distinct(Released(nodes, names))
  {
    if names != [] {
      var tail := names[1..];
      ReleasedSpec(nodes, tail);
      var head := if nodes[names[0]].counter == 1 then [Work(names[0])] else [];
      var rest := Released(nodes, tail);
      assert Released(nodes, names) == head + rest;
      forall k ensures Work(k) in head + rest <==> k in names && nodes[k].counter == 1 {
        assert k in names <==> k == names[0] || k in tail;
      }
      if Distinct(names) {
        assert names[0] !in tail;
        forall i, j | 0 <= i < j < |head + rest| ensures (head + rest)[i] != (head + rest)[j] {
          if i < |head| {
            assert (head + rest)[j] in rest;
          } else {
            assert (head + rest)[i] == rest[i - |head|];
            assert (head + rest)[j] == rest[j - |head|];
          }
        }
      }
    }
  }

  /** Lowering one counter keeps the entries-plus-pending total from growing. */
  lemma DecrementOnePending(nodes: map<Name, Node>, k: Name)
    requires k in nodes
    ensures var c := nodes[k].counter - 1;
      && Pending(nodes[k := nodes[k].(counter := c)]) <= Pending(nodes)
      && |Pending(nodes[k := nodes[k].(counter := c)])| + (if c == 0 then 1 else 0) <= |Pending(nodes)|
  {
    var c := nodes[k].counter - 1;
    var after := nodes[k := nodes[k].(counter := c)];
    if c == 0 {
      assert Pending(after) == Pending(nodes) - {k};
    } else {
      SubsetCard(Pending(after), Pending(nodes));
    }
  }

  /** `a` and `b` agree on everything but the counter. */
  predicate SameButCounter(a: Node, b: Node) {
    a == b.(counter := a.counter)
  }

  /** `decrement(names)`: lower each listed counter by one, in list order,
      and enqueue a node (raising `having`) when its counter reaches 0.
      The queue only grows, by nodes of the list, and `having` rises by as
      many entries as were added; `DecrementFrame` shows that nothing else
      but the counters changes. */
  function Decrement(s: Sched, names: seq<Name>): (r: Sched)
    requires forall x | x in names :: x in s.nodes
    ensures r.nodes.Keys == s.nodes.Keys
    ensures |s.queue| <= |r.queue| && r.queue[..|s.queue|] == s.queue
    ensures forall i | |s.queue| <= i < |r.queue| :: r.queue[i].Work? && r.queue[i].name in names
    ensures r.having - s.having == |r.queue| - |s.queue|
    decreases names
  {
    if names == [] then s
    else
      var s1 := LowerOne(s, names[0]);
      var r := Decrement(s1, names[1..]);
      assert r.queue[..|s.queue|] == r.queue[..|s1.queue|][..|s.queue|];
      r
  }

  /** One iteration of `decrement`'s loop, on node `k`. */
  function LowerOne(s: Sched, k: Name): (r: Sched)
    requires k in s.nodes
    ensures r == s.(nodes := r.nodes, queue := r.queue, having := r.having)
    ensures r.nodes == s.nodes[k := s.nodes[k].(counter := s.nodes[k].counter - 1)]
    ensures r.nodes[k].counter == 0 ==> r.queue == s.queue + [Work(k)] && r.having == s.having + 1
    ensures r.nodes[k].counter != 0 ==> r.queue == s.queue && r.having == s.having
  {
    var c := s.nodes[k].counter - 1;
    var s1 := s.(nodes := s.nodes[k := s.nodes[k].(counter := c)]);
    if c == 0 then s1.(queue := s1.queue + [Work(k)], having := s1.having + 1) else s1
  }

  /** A decrement changes nothing but counters, the queue and `having`. */
  lemma {:induction false} DecrementFrame(s: Sched, names: seq<Name>)
    requires forall x | x in names :: x in s.nodes
    ensures var r := Decrement(s, names);
      && r == s.(nodes := r.nodes, queue := r.queue, having := r.having)
      && forall k | k in s.nodes :: SameButCounter(r.nodes[k], s.nodes[k])
    decreases names
  {
    if names != [] {
      DecrementFrame(LowerOne(s, names[0]), names[1..]);
    }
  }

  /** Each entry a decrement adds is a node leaving the pending set, so
      entries plus pending nodes never grow. */
  lemma {:induction false} DecrementPending(s: Sched, names: seq<Name>)
    requires forall x | x in names :: x in s.nodes
    ensures Pending(Decrement(s, names).nodes) <= Pending(s.nodes)
    ensures |Decrement(s, names).queue| - |s.queue| + |Pending(Decrement(s, names).nodes)|
         <= |Pending(s.nodes)|
    decreases names
  {
    if names != [] {
      var s1 := LowerOne(s, names[0]);
      DecrementOnePending(s.nodes, names[0]);
      DecrementPending(s1, names[1..]);
      var r := Decrement(s1, names[1..]);
      assert Decrement(s, names) == r;
      assert |s1.queue| - |s.queue| + |Pending(s1.nodes)| <= |Pending(s.nodes)|;
    }
  }

  /** A decrement never raises a counter. */
  lemma {:induction false} DecrementLowers(s: Sched, names: seq<Name>)
    requires forall x | x in names :: x in s.nodes
    ensures forall k | k in s.nodes :: Decrement(s, names).nodes[k].counter <= s.nodes[k].counter
    decreases names
  {
    if names != [] {
      var s1 := LowerOne(s, names[0]);
      DecrementLowers(s1, names[1..]);
      assert Decrement(s, names) == Decrement(s1, names[1..]);
    }
  }

  /** Every entry a decrement adds is a node that was pending before it and
      is pending no more after it. */
  lemma {:induction false} DecrementReleases(s: Sched, names: seq<Name>)
    requires forall x | x in names :: x in s.nodes
    ensures var r := Decrement(s, names);
      forall i | |s.queue| <= i < |r.queue| ::
        r.queue[i].name in Pending(s.nodes) && r.queue[i].name !in Pending(r.nodes)
    decreases names
  {
    if names != [] {
      var k := names[0];
      var s1 := LowerOne(s, k);
      var r := Decrement(s1, names[1..]);
      assert Decrement(s, names) == r;
      DecrementReleases(s1, names[1..]);
      DecrementLowers(s1, names[1..]);
      DecrementOnePending(s.nodes, k);
      assert Pending(s1.nodes) <= Pending(s.nodes);
      forall i | |s.queue| <= i < |r.queue|
        ensures r.queue[i].name in Pending(s.nodes) && r.queue[i].name !in Pending(r.nodes)
      {
        if i < |s1.queue| {
          assert r.queue[i] == s1.queue[i] == Work(k);
          assert s.nodes[k].counter == 1;
          assert r.nodes[k].counter <= s1.nodes[k].counter == 0;
        } else {
          assert |s1.queue| <= i < |Decrement(s1, names[1..]).queue|;
          assert Decrement(s1, names[1..]).queue[i].name in Pending(s1.nodes);
        }
      }
    }
  }

  /** For a list without repetitions, every listed counter drops by exactly
      one, no other counter moves, and the entries added are
      `Released(names)`. */
  lemma DecrementExact(s: Sched, names: seq<Name>)
    requires forall x | x in names :: x in s.nodes
    requires Distinct(names)
    ensures forall k | k in s.nodes ::
      Decrement(s, names).nodes[k].counter == s.nodes[k].counter - (if k in names then 1 else 0)
    ensures Decrement(s, names).queue == s.queue + Released(s.nodes, names)
  {
    DecrementCounters(s, names);
    DecrementQueue(s, names);
  }

  lemma {:induction false} DecrementCounters(s: Sched, names: seq<Name>)
    requires forall x | x in names :: x in s.nodes
    requires Distinct(names)
    ensures forall k | k in s.nodes ::
      Decrement(s, names).nodes[k].counter == s.nodes[k].counter - (if k in names then 1 else 0)
    decreases names
  {
    if names != [] {
      var k := names[0];
      var s1 := LowerOne(s, k);
      assert k !in names[1..];
      DecrementCounters(s1, names[1..]);
      assert Decrement(s, names) == Decrement(s1, names[1..]);
      forall x | x in s.nodes
        ensures Decrement(s, names).nodes[x].counter == s.nodes[x].counter - (if x in names then 1 else 0)
      {
        assert x in names <==> x == k || x in names[1..];
      }
    }
  }

  lemma {:induction false} DecrementQueue(s: Sched, names: seq<Name>)
    requires forall x | x in names :: x in s.nodes
    requires Distinct(names)
    ensures Decrement(s, names).queue == s.queue + Released(s.nodes, names)
    decreases names
  {
    if names != [] {
      var k := names[0];
      var s1 := LowerOne(s, k);
      assert k !in names[1..];
      DecrementQueue(s1, names[1..]);
      ReleasedAgree(s1.nodes, s.nodes, names[1..]);
      assert Decrement(s, names) == Decrement(s1, names[1..]);
      var head := if s.nodes[k].counter == 1 then [Work(k)] else [];
      assert Released(s.nodes, names) == head + Released(s.nodes, names[1..]);
      assert s1.queue == s.queue + head;
      AppendAssoc(s.queue, head, Released(s.nodes, names[1..]));
    }
  }

  lemma AppendAssoc<T>(a: seq<T>, b: seq<T>, c: seq<T>)
    ensures (a + b) + c == a + (b + c)
  {
  }

  /** `Released` only looks at the counters of the listed names. */
  lemma {:induction false} ReleasedAgree(a: map<Name, Node>, b: map<Name, Node>, names: seq<Name>)
    requires forall x | x in names :: x in a && x in b && a[x].counter == b[x].counter
    ensures Released(a, names) == Released(b, names)
  {
    if names != [] {
      ReleasedAgree(a, b, names[1..]);
    }
  }

  /** `get()`, up to the blocking dequeue: lower `having`, and when it
      reaches `-threads` post one stop marker per worker. The queue keeps
      its entries and gains exactly `threads` stop markers at that call and
      none otherwise. */
  function Get(s: Sched): (r: Sched)
    ensures r == s.(having := r.having, queue := r.queue)
    ensures r.having == s.having - 1
    ensures |s.queue| <= |r.queue| && r.queue[..|s.queue|] == s.queue
    ensures |r.queue| == |s.queue| + (if r.having == -(s.threads as int) then s.threads else 0)
    ensures forall i | |s.queue| <= i < |r.queue| :: r.queue[i] == Stop
  {
    var having := s.having - 1;
    if having == -(s.threads as int) then
      s.(having := having, queue := s.queue + Stops(s.threads))
    else s.(having := having)
  }

  /** `n` stop markers. */
  function Stops(n: nat): (r: seq<Item>)
    ensures |r| == n && forall i | 0 <= i < n :: r[i] == Stop
  {
    if n == 0 then [] else [Stop] + Stops(n - 1)
  }

  /** `feedback(n)`: drop `n` from `left` and decrement its dependents. */
  function Feedback(s: Sched, n: Name): (r: Sched)
    requires n in s.nodes
    requires forall c | c in s.nodes[n].children :: c in s.nodes
    ensures r.left == s.left - {n}
    ensures r == s.(left := r.left, nodes := r.nodes, queue := r.queue, having := r.having)
    ensures r.nodes.Keys == s.nodes.Keys
  {
    DecrementFrame(s.(left := s.left - {n}), s.nodes[n].children);
    Decrement(s.(left := s.left - {n}), s.nodes[n].children)
  }

  /** Feeding back changes no field of any node except its counter. */
  lemma FeedbackFrame(s: Sched, n: Name)
    requires n in s.nodes
    requires forall c | c in s.nodes[n].children :: c in s.nodes
    ensures var r := Feedback(s, n);
      forall k | k in s.nodes :: SameButCounter(r.nodes[k], s.nodes[k])
  {
    DecrementFrame(s.(left := s.left - {n}), s.nodes[n].children);
  }

  /** Feeding back `n`, whose dependents are listed once each, lowers the
      counter of every dependent by exactly one and of no other node, and
      enqueues exactly the dependents whose counter was 1, in list order. */
  lemma FeedbackExact(s: Sched, n: Name)
    requires n in s.nodes && Distinct(s.nodes[n].children)
    requires forall c | c in s.nodes[n].children :: c in s.nodes
    ensures var r := Feedback(s, n);
      && (forall k | k in s.nodes ::
            r.nodes[k].counter == s.nodes[k].counter - (if k in s.nodes[n].children then 1 else 0))
      && r.queue == s.queue + Released(s.nodes, s.nodes[n].children)
  {
    DecrementExact(s.(left := s.left - {n}), s.nodes[n].children);
  }

  /** `BuildQueue(nodes.values(), num_threads)`: `left` is every node, and
      the initial decrement of every node in insertion order enqueues
      exactly the nodes whose counter was 1, in that order, with `having`
      equal to the number enqueued. */
  function Init(g: Graph, threads: nat): (s: Sched)
    requires forall x | x in g.order :: x in g.nodes
    ensures s.nodes.Keys == g.nodes.Keys && s.left == g.nodes.Keys && s.threads == threads
    ensures s.waiting == 0 && s.dispatched == [] && s.log == [Start(g.nodes.Keys)]
    ensures s.having == |s.queue|
    ensures forall k | k in g.nodes :: SameButCounter(s.nodes[k], g.nodes[k])
  {
    var s0 := Sched(g.nodes, g.nodes.Keys, [], 0, threads, 0, [], [Start(g.nodes.Keys)]);
    DecrementFrame(s0, g.order);
    Decrement(s0, g.order)
  }

  /** `k` workers calling `get` one after another, none dequeuing yet. */
  function Gets(s: Sched, k: nat): (r: Sched)
    ensures r == s.(having := r.having, queue := r.queue)
    ensures r.having == s.having - k
    ensures |s.queue| <= |r.queue| && r.queue[..|s.queue|] == s.queue
    ensures forall i | |s.queue| <= i < |r.queue| :: r.queue[i] == Stop
    ensures |r.queue| == |s.queue| + (if 1 <= s.having + s.threads <= k then s.threads else 0)
  {
    if k == 0 then s
    else
      var s1 := Gets(s, k - 1);
      var r := Get(s1);
      assert r.queue[..|s.queue|] == r.queue[..|s1.queue|][..|s.queue|];
      r
  }
}

=== FILE: scheduler.dfy ===
/** The worker pool and `build`, as a sequential interleaving: every worker
    first enters `get`; then, one step at a time, the head of the queue goes
    to a waiting worker, which either exits on a stop marker or processes
    the node (execute, then feed back or report it missing) and enters
    `get` again. */
module Scheduler {
  import opened Collections
  import opened Actions
  import opened Graph
  import opened Staleness
  import opened Executor
  import opened Queue

  /** The file system as the run sees it: the snapshot sampled while the
      graph is built, and the paths that exist when a worker checks a node
      after running its actions. */
  datatype Disk = Disk(snapshot: Snapshot, after: set<Name>)

  /** What `build` reports: the verdict and left-over names of
      `report_end`, the names handed to workers in order, and every event. */
  datatype Outcome = Outcome(success: bool, leftover: set<Name>, dispatched: seq<Name>, events: seq<Event>)

  /** The worker's success rule: the node's actions succeeded, and the node
      is virtual (its name starts with '!') or its path exists afterwards. */
  predicate Completed(ok: bool, n: Name, after: set<Name>) {
    ok && ("!" <= n || n in after)
  }

  /** The task events for a list of reports, in order. */
  function Tasks(reports: seq<TaskReport>): (r: seq<Event>)
    ensures |r| == |reports|
    ensures forall i | 0 <= i < |r| :: r[i] == Task(reports[i])
    ensures forall d :: Missing(d) !in r
  {
    if reports == [] then [] else [Task(reports[0])] + Tasks(reports[1..])
  }

  /** Every name the state refers to has a node. */
  ghost predicate Closed(s: Sched) {
    && (forall k, c | k in s.nodes && c in s.nodes[k].children :: c in s.nodes)
    && (forall i | 0 <= i < |s.queue| && s.queue[i].Work? :: s.queue[i].name in s.nodes)
  }

  /** One worker's handling of node `n` (the body of `worker_thread`'s
      loop): execute the task; feed the node back when it completed, and
      otherwise report it missing and leave its dependents blocked. */
  function Process(s: Sched, n: Name, after: set<Name>): (r: Sched)
    requires n in s.nodes
    requires forall c | c in s.nodes[n].children :: c in s.nodes
    ensures r.nodes.Keys == s.nodes.Keys
    ensures r.threads == s.threads && r.waiting == s.waiting && r.dispatched == s.dispatched
    ensures var e := ExecuteTask(s.nodes, n);
      && (Completed(e.ok, n, after) ==> r.left == s.left - {n} && r.log == s.log + Tasks(e.reports))
      && (!Completed(e.ok, n, after) ==>
            r.left == s.left && r.queue == s.queue && r.having == s.having
            && r.log == s.log + Tasks(e.reports) + [Missing(n)])
  {
    var e := ExecuteTask(s.nodes, n);
    var s1 := s.(nodes := e.nodes, log := s.log + Tasks(e.reports));
    if Completed(e.ok, n, after) then Feedback(s1, n)
    else s1.(log := s1.log + [Missing(n)])
  }

  /** One scheduling step: the head of the queue goes to a waiting worker. */
  function Step(s: Sched, after: set<Name>): (r: Sched)
    requires s.waiting > 0 && |s.queue| > 0 && Closed(s)
    ensures r.nodes.Keys == s.nodes.Keys && r.threads == s.threads
    ensures r.left <= s.left
    ensures s.queue[0] == Stop ==> r.dispatched == s.dispatched && r.waiting == s.waiting - 1
    ensures s.queue[0].Work? ==> r.dispatched == s.dispatched + [s.queue[0].name] && r.waiting == s.waiting
  {
    match s.queue[0]
    case Stop => s.(queue := s.queue[1..], waiting := s.waiting - 1)
    case Work(n) =>
      Get(Process(s.(queue := s.queue[1..], dispatched := s.dispatched + [n]), n, after))
  }

  /** Every worker of the pool enters `get` once, before any dequeue. */
  function StartWorkers(s: Sched): (r: Sched)
    requires s.waiting == 0
    ensures r == s.(having := r.having, queue := r.queue, waiting := s.threads)
    ensures r.having == s.having - s.threads
  {
    Gets(s, s.threads).(waiting := s.threads)
  }

  // ---------------------------------------------------------------------
  // Termination and the stop markers

  /** Before the stop markers are posted: only nodes are queued, every
      worker waits in `get`, `having` is the queue length minus the pool
      size, and with any worker at all the queue is not empty (an empty
      queue would have triggered the stop markers). */
  ghost predicate Running(s: Sched) {
    && (forall i | 0 <= i < |s.queue| :: s.queue[i].Work?)
    && s.waiting == s.threads
    && s.having == |s.queue| - s.threads
    && (s.threads > 0 ==> |s.queue| > 0)
  }

  /** After the stop markers are posted: only stop markers are queued, one
      for each worker still waiting, and `having` rests at `-threads`. */
  ghost predicate Stopping(s: Sched) {
    && (forall i | 0 <= i < |s.queue| :: s.queue[i] == Stop)
    && s.waiting == |s.queue| <= s.threads
    && s.having == -(s.threads as int)
  }

  ghost predicate Phased(s: Sched) {
    Closed(s) && (Running(s) || Stopping(s))
  }

  /** Queue entries, plus nodes not yet released, plus the stop markers
      still to be posted. */
  ghost function Measure(s: Sched): nat {
    |s.queue| + |Pending(s.nodes)| + (if Stop in s.queue || s.waiting < s.threads then 0 else s.threads)
  }

  /** Feeding a node back keeps names resolvable and dependents unchanged;
      whatever it enqueues is a node leaving the pending set and raises
      `having` by one. */
  lemma FeedbackFacts(s: Sched, n: Name)
    requires n in s.nodes && Closed(s)
    ensures var r := Feedback(s, n);
      && (forall k | k in s.nodes :: r.nodes[k].children == s.nodes[k].children)
      && |s.queue| <= |r.queue| && r.queue[..|s.queue|] == s.queue
      && (forall i | |s.queue| <= i < |r.queue| :: r.queue[i].Work? && r.queue[i].name in s.nodes)
      && r.having - s.having == |r.queue| - |s.queue|
      && |r.queue| - |s.queue| + |Pending(r.nodes)| <= |Pending(s.nodes)|
      && Closed(r)
  {
    var s2 := s.(left := s.left - {n});
    DecrementFrame(s2, s.nodes[n].children);
    DecrementPending(s2, s.nodes[n].children);
  }

  /** Processing a node: as `FeedbackFacts` when it completes, and nothing
      but the flags and the log change otherwise. */
  lemma ProcessFacts(s: Sched, n: Name, after: set<Name>)
    requires n in s.nodes && Closed(s)
    ensures var r := Process(s, n, after);
      && (forall k | k in s.nodes :: r.nodes[k].children == s.nodes[k].children)
      && |s.queue| <= |r.queue| && r.queue[..|s.queue|] == s.queue
      && (forall i | |s.queue| <= i < |r.queue| :: r.queue[i].Work? && r.queue[i].name in s.nodes)
      && r.having - s.having == |r.queue| - |s.queue|
      && |r.queue| - |s.queue| + |Pending(r.nodes)| <= |Pending(s.nodes)|
      && Closed(r)
  {
    var e := ExecuteTask(s.nodes, n);
    var s1 := s.(nodes := e.nodes, log := s.log + Tasks(e.reports));
    assert Pending(s1.nodes) == Pending(s.nodes);
    assert Closed(s1);
    if Completed(e.ok, n, after) {
      FeedbackFacts(s1, n);
    } else {
      assert s.queue[..|s.queue|] == s.queue;
    }
  }

  /** A step keeps the phase invariant and lowers the measure. */
  lemma StepPhased(s: Sched, after: set<Name>)
    requires Phased(s) && s.waiting > 0 && |s.queue| > 0
    ensures Phased(Step(s, after))
    ensures Measure(Step(s, after)) < Measure(s)
  {
    if s.queue[0] == Stop {
      assert Stopping(s);
      assert Stop in s.queue;
    } else {
      WorkStepPhased(s, after);
    }
  }

  /** Handing out a node while running: the pool stays running, or the
      feedback drained everything and the stop markers are posted. */
  lemma WorkStepPhased(s: Sched, after: set<Name>)
    requires Phased(s) && s.waiting > 0 && |s.queue| > 0 && s.queue[0].Work?
    ensures Phased(Step(s, after))
    ensures Measure(Step(s, after)) < Measure(s)
  {
    var r := Step(s, after);
    assert Running(s);
    var n := s.queue[0].name;
    var s1 := s.(queue := s.queue[1..], dispatched := s.dispatched + [n]);
    var s2 := Process(s1, n, after);
    HandOut(s, after);
    if |s2.queue| == 0 {
      assert Stopping(r);
      if r.threads > 0 {
        assert r.queue[0] == Stop;
      }
    } else {
      assert r.queue == s2.queue;
      assert Running(r);
      assert Stop !in r.queue;
    }
  }

  /** Handing out and processing the head node of a running pool, before
      the worker's next `get`: only nodes are queued, `having` still counts
      the queue, and the measure has dropped. */
  lemma HandOut(s: Sched, after: set<Name>)
    requires Closed(s) && Running(s) && |s.queue| > 0 && s.queue[0].Work?
    ensures var n := s.queue[0].name;
      var s2 := Process(s.(queue := s.queue[1..], dispatched := s.dispatched + [n]), n, after);
      && Closed(s2)
      && (forall i | 0 <= i < |s2.queue| :: s2.queue[i].Work?)
      && s2.having - s.having == |s2.queue| - |s.queue| + 1
      && |s2.queue| + |Pending(s2.nodes)| < |s.queue| + |Pending(s.nodes)|
      && s2.waiting == s.waiting && s2.threads == s.threads
  {
    var n := s.queue[0].name;
    var s1 := s.(queue := s.queue[1..], dispatched := s.dispatched + [n]);
    ProcessFacts(s1, n, after);
    var s2 := Process(s1, n, after);
    forall i | 0 <= i < |s2.queue| ensures s2.queue[i].Work? {
      if i < |s1.queue| {
        assert s2.queue[i] == s1.queue[i] == s.queue[i + 1];
      }
    }
  }

  /** Runs scheduling steps until no worker waits or nothing is queued.
      Every worker has then received its stop marker; with a non-empty
      pool the queue is drained and `having` rests at `-threads`, so `get`
      was called once per enqueued node plus once per worker. */
  function Run(s: Sched, after: set<Name>): (r: Sched)
    requires Phased(s)
    ensures Phased(r)
    ensures r.waiting == 0
    ensures r.threads == s.threads && r.nodes.Keys == s.nodes.Keys && r.left <= s.left
    ensures r.threads > 0 ==> r.queue == [] && r.having == -(r.threads as int)
    decreases Measure(s)
  {
    if s.waiting > 0 && |s.queue| > 0 then
      StepPhased(s, after);
      Run(Step(s, after), after)
    else s
  }

  /** `build(context, depends, builds, first, num_threads)`. */
  function Build(depends: DependTable, builds: BuildTable, first: Name, threads: nat, disk: Disk): (o: Outcome)
    ensures first !in depends && first !in builds ==>
      o == Outcome(false, {first}, [], [Missing(first), End(false, {first})])
    ensures o.success <==> o.leftover == {}
    ensures |o.events| > 0 && o.events[|o.events| - 1] == End(o.success, o.leftover)
  {
    if first !in depends && first !in builds then
      Outcome(false, {first}, [], [Missing(first), End(false, {first})])
    else
      var g := Construct(depends, builds, disk.snapshot, first);
      ConstructWellFormed(depends, builds, disk.snapshot, first);
      var r := Launch(g, threads, disk.after);
      Outcome(r.left == {}, r.left, r.dispatched, r.log + [End(r.left == {}, r.left)])
  }

  /** The queue constructor, the pool's start and the run to completion on
      a well-formed graph. */
  function Launch(g: Graph, threads: nat, after: set<Name>): (r: Sched)
    requires WellFormed(g)
    ensures Phased(r) && r.waiting == 0 && r.threads == threads
    ensures r.nodes.Keys == g.nodes.Keys && r.left <= g.nodes.Keys
    ensures threads > 0 ==> r.queue == [] && r.having == -(threads as int)
  {
    assert forall x | x in g.order :: x in ToSet(g.order);
    StartPhased(g, threads);
    Run(StartWorkers(Init(g, threads)), after)
  }

  /** After the constructor and the pool's first `get` calls, the state is
      in phase: stop markers were posted iff nothing was ready. */
  lemma StartPhased(g: Graph, threads: nat)
    requires WellFormed(g)
    ensures Phased(StartWorkers(Init(g, threads)))
  {
    var s0 := Init(g, threads);
    var s := StartWorkers(s0);
    assert forall i | 0 <= i < |s0.queue| :: s0.queue[i].Work? && s0.queue[i].name in g.nodes;
    assert s.queue[..|s0.queue|] == s0.queue;
    if 1 <= s0.having + threads <= threads {
      assert |s0.queue| == 0;
      assert Stopping(s);
    } else {
      assert s.queue == s0.queue;
      assert Running(s);
    }
  }
}

=== FILE: staleness.dfy ===
/** `BuildNode.should_build`: decide whether a node must be built and mark
    its dependents (`children`) absent when they must be rebuilt after it. */
module Staleness {
  import opened Collections
  import opened Actions
  import opened Graph

  /** Whether dependent `k` is marked absent by a node whose own flag is
      `selfPresent` and mtime `selfMtime`: every dependent when the node is
      absent, otherwise the present dependents older than the node. */
  predicate Outdated(k: Node, selfPresent: bool, selfMtime: int) {
    !selfPresent || (k.present && k.mtime < selfMtime)
  }

  /** The loop of `should_build` over the dependents `cs`. */
  function MarkDependents(nodes: map<Name, Node>, cs: seq<Name>,
                          selfPresent: bool, selfMtime: int): (r: map<Name, Node>)
    requires forall c | c in cs :: c in nodes
    ensures r.Keys == nodes.Keys
    ensures forall k | k in nodes :: r[k] == nodes[k].(present := r[k].present)
    ensures forall k | k in nodes ::
      r[k].present <==> nodes[k].present && !(k in cs && Outdated(nodes[k], selfPresent, selfMtime))
  {
    if cs == [] then nodes
    else
      var c := nodes[cs[0]];
      var n1 := if Outdated(c, selfPresent, selfMtime) then nodes[cs[0] := c.(present := false)]
                else nodes;
      MarkDependents(n1, cs[1..], selfPresent, selfMtime)
  }

  /** `n.should_build()`: the node must be built exactly when its own flag
      says absent, and that flag is left as it was. Only the flags of its
      dependents change: all of them become absent when the node is absent;
      when it is present, exactly the present dependents with an older mtime
      become absent. Every other field of every node is unchanged. */
  function ShouldBuild(nodes: map<Name, Node>, n: Name): (res: (bool, map<Name, Node>))
    requires n in nodes
    requires forall c | c in nodes[n].children :: c in nodes
    ensures res.0 <==> !nodes[n].present
    ensures res.1.Keys == nodes.Keys
    ensures res.1[n] == nodes[n]
    ensures forall k | k in nodes :: res.1[k] == nodes[k].(present := res.1[k].present)
    ensures forall k | k in nodes && k !in nodes[n].children :: res.1[k] == nodes[k]
    ensures forall k | k in nodes[n].children && !nodes[n].present :: !res.1[k].present
    ensures forall k | k in nodes[n].children && nodes[n].present ::
      res.1[k].present <==> nodes[k].present && nodes[n].mtime <= nodes[k].mtime
  {
    var self := nodes[n];
    var marked := MarkDependents(nodes, self.children, self.present, self.mtime);
    (!marked[n].present, marked)
  }
}
